=== FILE: README.md ===
# Motofix workshop point of sale, modelled in Dafny

Motofix is a point-of-sale and workshop-management web application for a motorcycle
repair shop. This project models its logic in Dafny. It covers four parts:

- **The sale recorder of the Express server** (`server.ts`). `POST /api/transactions` issues an
  invoice number `INV-<milliseconds>` and inserts a sale row. It then inserts one line-item row per
  cart entry, takes product quantities off stock, and stamps the customer's `last_service`. All of
  this runs inside one SQLite transaction.
  - `SaleRecorder.SaleStore` holds these tables as fields: product stock, sale rows, line-item rows
    and customers. Its `RecordSale` method checks the invoice number and the foreign keys and then
    hands over to `SaleTransaction`, the `db.transaction` wrapper. That wrapper runs the statements
    (`InsertSale`, with the item loop in `InsertItems`) and restores a snapshot when any statement
    is rejected.
  - `Reports` models the profit/loss report, the monthly profit chart and the dashboard's low-stock
    count. Their SQL sums are inputs.
- **The two checkout screens.** Both keep a cart of lines keyed by (id, type).
  - The point-of-sale page (`Pos`) caps product quantities at stock. It clamps quantity changes at 1.
  - The new-transaction modal (`TransactionModal`) sets quantities absolutely and refuses values
    below 1. It has an item picker that searches the catalog.
  - Their shared building blocks are in `CartLines`: find, filter, map by key, and the subtotal.
  - `Wire` holds the JSON item objects they send.
- **The role permission hook** (`Permissions`). It upper-cases the role, derives the capability
  flags, the action warnings and the masking of currency amounts.

Every cart handler is a function from the old cart to the new one. The lemmas beside each handler
show several things:

- the cart invariant survives: (id, type) keys are unique, and every line has quantity at least 1
  and subtotal = quantity × price;
- only the targeted line changes;
- the subtotal moves by exactly the changed line's difference.

About the sale recorder in particular:

- The handler checks nothing about its input: items may be empty, and quantities or prices may be negative. The model does not require otherwise.
- The `transactions` table declares foreign keys on `customer_id` and `mechanic_id` (server.ts:69-70), and better-sqlite3 enforces foreign keys by default. A sale that names a customer or mechanic that does not exist is therefore rejected by its INSERT and changes nothing. `SaleStore` holds the mechanic ids for this check.
- A customer is stamped only when `customer_id` is truthy (`if (customer_id)`). An id of 0 passes the foreign key only if a customer 0 exists, and even then is not stamped.
- Stock is decremented only for items whose `type` is `product`, read under the keys `type` and `id`.

## Model

| member | source | states |
|---|---|---|
| CartLines.IndexOf | src/components/POS.tsx:48 | `find` by (id, type): the first line with that key, or `None` exactly when no line has it |
| CartLines.IndexOfUnique | src/components/POS.tsx:48 | in a cart with unique keys, looking up a line's own key finds that line |
| CartLines.KeysDiffer | src/components/POS.tsx:48 | in a cart with unique keys, two different positions hold different (id, type) keys |
| CartLines.Without | src/components/POS.tsx:79 | `filter` by key leaves no line with the key and never grows the cart |
| CartLines.WithoutMembers | src/components/POS.tsx:79 | a line survives the filter exactly when it was in the cart with another key |
| CartLines.WithoutAbsent | src/components/TransactionModal.tsx:108 | filtering a key the cart does not hold leaves the cart as it was |
| CartLines.WithoutRemovesOne | src/components/TransactionModal.tsx:107-109 | with unique keys, the filter drops exactly the matching line and keeps the rest in order |
| CartLines.MapKeyUpdatesOne | src/components/POS.tsx:65-75 | with unique keys, `map` by key replaces the matching line alone, or nothing |
| CartLines.MapKey | src/components/POS.tsx:65-75 | `cart.map` that rewrites the lines with one (id, type) key; MapKeyUpdatesOne states its effect |
| CartLines.SubtotalAppend | src/components/POS.tsx:82 | the `reduce` sum of two carts appended is the sum of their sums |
| CartLines.SubtotalReplace | src/components/POS.tsx:82 | replacing one line moves the sum by that line's difference |
| CartLines.SubtotalDrop | src/components/POS.tsx:82 | dropping one line lowers the sum by its subtotal |
| CartLines.SubtotalNonNegative | src/components/TransactionModal.tsx:76 | priced lines with non-negative prices sum to a non-negative subtotal |
| CartLines.SubtotalSingle | src/components/POS.tsx:82 | the sum of a one-line cart is that line's subtotal |
| CartLines.Subtotal | src/components/POS.tsx:82 | `reduce((acc, curr) => acc + curr.subtotal, 0)`; SubtotalAppend, SubtotalReplace and SubtotalDrop state how it moves |
| CartLines.InvariantReplace | src/components/POS.tsx:51 | replacing a line by a priced line with the same key keeps the cart invariant |
| CartLines.InvariantAppend | src/components/POS.tsx:53-60 | appending a priced line with a new key keeps the cart invariant |
| CartLines.InvariantWithout | src/components/POS.tsx:78-80 | filtering out a key keeps the cart invariant |
| CartLines.InvariantSplice | src/components/POS.tsx:78-80 | cutting one line out of a valid cart leaves a valid cart |
| CartLines.NewLineKeepsInvariant | src/components/POS.tsx:53-60 | appending the line of an item the cart does not hold keeps the invariant and adds the item's unit price to the subtotal |
| CartLines.OneMoreUnitKeepsInvariant | src/components/POS.tsx:51 | one more unit on a line, with subtotal recomputed from the price, keeps the invariant and adds the line's price to the subtotal |
| Wire.ParseType | src/components/TransactionModal.tsx:16 | parsing a type string yields a type whose name is that string |
| Wire.ParseTypeName | src/components/TransactionModal.tsx:16 | the type names `product` and `service` parse back to their types |
| Wire.ItemObjectRoundTrip | src/components/TransactionModal.tsx:122-129 | every field of a line survives the trip into the modal's item object and back |
| Wire.ItemObject | src/components/TransactionModal.tsx:122-129 | the item object with the keys `id`, `type`, `name`, `quantity`, `price`, `subtotal`; ItemObjectRoundTrip reads it back |
| Invoice.DigitChar | server.ts:220 | a digit value renders as a decimal digit character |
| Invoice.Decimal | server.ts:220 | the rendering of a clock reading is a non-empty string of digits with no leading zero |
| Invoice.InvoiceNumber | server.ts:220 | `INV-` followed by the decimal clock reading; InvoiceRoundTrip reads the reading back out of it, and InvoiceInjective shows two numbers are equal exactly when the readings are, so only a repeated millisecond collides |
| Invoice.DecimalRoundTrip | server.ts:220 | the digits of a reading denote that reading |
| Invoice.InvoiceRoundTrip | server.ts:220 | the clock reading can be read back from its invoice number |
| Invoice.InvoiceInjective | server.ts:220 | two invoice numbers are equal exactly when the two clock readings are |
| SaleRecorder.ReadItem | server.ts:234-236 | an object without `type` reads as a line with no type, which is no product line; one without `id` reads as a line with no id |
| SaleRecorder.IsProductLine | server.ts:236 | only a line whose `type` is the string `product` is a product line; ReadItem and PosPayloadLosesTypeAndId show a missing `type` is not one |
| SaleRecorder.ReadItemOfItemObject | server.ts:234-236 | an object with the keys the server expects is read back with the line's type name, id, quantity, price and subtotal |
| SaleRecorder.StockAfterSale | server.ts:236-238 | after a sale every product is still present, each stock is lowered by the total quantity its product lines name, and min_stock is kept |
| SaleRecorder.Decrement | server.ts:237 | `UPDATE products SET stock = stock - ? WHERE id = ?`: the same product ids afterwards, and every product other than the named one unchanged |
| SaleRecorder.ApplyItem | server.ts:236-238 | one item's stock statement: a product line decrements its id by its quantity and any other line changes nothing; SaleStep shows each loop iteration applies exactly this, and StockAfterSale gives the result over all items |
| SaleRecorder.ApplyDecrements | server.ts:230-239 | the items' stock statements in order keep the same product ids; StockAfterSale gives each stock |
| SaleRecorder.SoldQuantityUnnamed | server.ts:236-238 | a product named by no product line keeps its stock |
| SaleRecorder.SoldQuantityAppend | server.ts:230-239 | quantities of repeated lines for one product accumulate |
| SaleRecorder.ApplyDecrementsAppend | server.ts:230-239 | decrementing item by item in two runs is the same as in one run |
| SaleRecorder.SellingTwiceDecrementsTwice | server.ts:237 | recording the same items twice lowers stock by twice the sold quantity |
| SaleRecorder.NoStockFloor | server.ts:237 | stock has no floor: selling 3 of a product with stock 1 leaves -2 |
| SaleRecorder.TouchCustomer | server.ts:241-243 | a customer's last_service becomes the timestamp exactly when customer_id is truthy and names that customer; no other customer changes |
| SaleRecorder.Truthy | server.ts:241 | `if (customer_id)` acts only on a present, non-zero id; TouchCustomer stamps exactly such a customer |
| SaleRecorder.SameMillisecondCollides | server.ts:220 | a second sale in the same millisecond clashes with the UNIQUE invoice number and is rejected |
| SaleRecorder.InvoiceInUse | server.ts:62 | the UNIQUE `invoice_no` column: a number is taken when some stored sale holds it; SaleFailure rejects such a sale first, and CommitKeepsSalesValid keeps the stored numbers distinct |
| SaleRecorder.SaleFailure | server.ts:218-246 | why a sale is rejected: a taken invoice number, then an unknown customer or mechanic, then a statement the store rejects; the lemmas beside it state each case |
| SaleRecorder.UnknownReferenceRejected | server.ts:69-70 | with a fresh invoice number, a sale is refused for an unknown reference exactly when it names a customer or mechanic that does not exist; without either it never is |
| SaleRecorder.CommitKeepsReferencesKnown | server.ts:69-70 | a new sale whose customer and mechanic exist keeps every sale's references valid |
| SaleRecorder.CommitKeepsSalesValid | server.ts:222-226 | appending a sale row with the next id and an unused invoice number keeps sale ids increasing and invoice numbers unique |
| SaleRecorder.CommitKeepsLinesValid | server.ts:230-234 | appending the sale's line rows with consecutive ids keeps line ids increasing and below the next id |
| SaleRecorder.CommitKeepsLinesAttached | server.ts:228-234 | the new line rows name the new sale, so every line item still belongs to a recorded sale |
| SaleRecorder.LineRows | server.ts:230-234 | the `transaction_items` rows of one sale, one per item in input order with consecutive ids; SaleStep and CommitKeepsLinesValid state their effect |
| SaleRecorder.LineRowOf | server.ts:231-234 | the `transaction_items` row of one item: the sale id, the item's type, id, quantity, price and subtotal as read; SaleStep shows each loop iteration appends exactly this row |
| SaleRecorder.CommitKeepsTablesValid | server.ts:222-246 | committing one sale with a fresh invoice number keeps ids increasing, invoice numbers unique and every line item attached to a sale |
| SaleRecorder.SaleStep | server.ts:230-239 | one more item of the loop adds exactly that item's line row and that item's stock decrement |
| SaleRecorder.SaleStore.constructor | server.ts:27-72 | a new store holds the given products, customers and mechanics, no sales and no line items |
| SaleRecorder.SaleStore.RecordSale | server.ts:218-250 | fails exactly when the invoice number is taken, the customer or mechanic does not exist, or a statement is rejected, and then every table is as before. On success: one sale row with the request's values is appended, one line row per item in order, stocks are decremented, the customer is stamped, and `{ id, invoice_no }` is returned |
| SaleRecorder.SaleStore.SaleTransaction | server.ts:222-247 | commits exactly when no item and no customer stamp is rejected; then the sale row, one line row per item, the decrements and the stamp are all applied. Otherwise every table is back to its state before the sale |
| SaleRecorder.SaleStore.InsertSale | server.ts:222-244 | the statements run in order and fail exactly when an item or the customer stamp is rejected; otherwise the sale row, the line rows, the decrements and the stamp are all applied |
| SaleRecorder.SaleStore.InsertItems | server.ts:230-239 | fails exactly when one of the items is rejected; otherwise one line row per item in order and every product line's decrement |
| SaleRecorder.SaleStore.UpdateProduct | server.ts:164-171 | when SQLite rejects the statement (a clashing UNIQUE `code` or an unknown `category_id`, server.ts:29 and 36) the request fails and the product table is as before; otherwise the product's stock and min_stock are overwritten by the given values, no other product changes, and an unknown id changes nothing while the request still succeeds |
| Reports.ProfitLossReport | server.ts:281-283 | profit is income minus expense, and each sum is 0 when SQL returns NULL |
| Reports.OrZero | server.ts:281-283 | a NULL sum reads as 0, as the fallback to 0 after each sum does; ReportOverRows shows the report over no rows is 0 and otherwise the rows' sum |
| Reports.ReportOverRows | server.ts:277-283 | over the rows themselves, the report is the income sum, the expense sum and their difference |
| Reports.MonthlyProfit | server.ts:131-140 | twelve points named Jan to Dec in order |
| Reports.ChartAgreesWithReport | server.ts:136-139 | each month's bar is the profit the profit/loss report gives for that month's sums |
| Reports.LowStockCount | server.ts:116 | the number of products with stock <= min_stock, at most the number of products |
| Reports.IsLowStock | server.ts:116 | the dashboard's `stock <= min_stock`; BadgeAndCountDisagreeAtMinimum shows it holds for every badged product and, without the badge, exactly at stock == min_stock |
| Reports.LowStockAfterSale | server.ts:116 | a sale with non-negative quantities never lowers the low-stock count |
| Reports.SoldQuantityNonNegative | server.ts:237 | non-negative quantities give a non-negative sold total |
| Reports.BadgeAndCountDisagreeAtMinimum | src/components/Inventory.tsx:219-223 | every product the inventory page badges as low is counted, and a product exactly at min_stock is counted but not badged |
| Reports.InventoryBadgeLow | src/components/Inventory.tsx:223 | the inventory page's badge condition `stock < min_stock`; BadgeAndCountDisagreeAtMinimum compares it with the count |
| Pos.AddToCart | src/components/POS.tsx:47-62 | a new (id, type) is appended with quantity 1 and subtotal = price (sell_price for products); a product line already at the item's stock is left as it was |
| Pos.Bumped | src/components/POS.tsx:51 | one more unit with the subtotal recomputed from the line's price; AddToCartBumpsOne shows this is the only change to the cart below the cap |
| Pos.AtStockCap | src/components/POS.tsx:50 | a product line whose quantity has reached the item's stock; AddToCartWithinStock shows adding never takes a line past the stock |
| Pos.AddToCartBumpsOne | src/components/POS.tsx:48-51 | adding an existing line below the cap raises that line alone by 1, with subtotal = new quantity × price |
| Pos.AddToCartKeepsInvariant | src/components/POS.tsx:47-62 | `addToCart` keeps the cart invariant and raises the subtotal by one unit price, or by nothing at the cap |
| Pos.AddToCartWithinStock | src/components/POS.tsx:50 | a product line within the item's stock stays within it |
| Pos.FindProduct | src/components/POS.tsx:69 | `products.find` returns a catalog product with the id, or `None` when no product has it |
| Pos.FindProductFirst | src/components/POS.tsx:69 | `find` returns the first product with the id: whenever position j holds one, the result is among the first j + 1 |
| Pos.UpdateQuantity | src/components/POS.tsx:64-76 | the cart keeps its length, lines with other keys are untouched, and a changed line has quantity at least 1 |
| Pos.ExceedsStock | src/components/POS.tsx:69-70 | the new quantity is above the stock of the first catalog product with the id, and never when the catalog lacks it; UpdateQuantityWithinStock builds on it |
| Pos.Adjusted | src/components/POS.tsx:66-72 | `Math.max(1, quantity + delta)` with the subtotal recomputed, or the line unchanged when a product's stock would be exceeded; UpdateQuantityEffect shows only the keyed line becomes this |
| Pos.UpdateQuantityEffect | src/components/POS.tsx:65-75 | with unique keys, the matching line alone gets max(1, quantity + delta) and its subtotal, unless the catalog product's stock would be exceeded |
| Pos.UpdateQuantityKeepsInvariant | src/components/POS.tsx:64-76 | `updateQuantity` keeps the cart invariant and moves the subtotal by the changed line's difference |
| Pos.UpdateQuantityWithinStock | src/components/POS.tsx:68-71 | a known product's line never rises above the product's stock through a quantity change |
| Pos.RemoveFromCart | src/components/POS.tsx:78-80 | no line with the removed key is left |
| Pos.RemoveFromCartEffect | src/components/POS.tsx:78-80 | on a valid cart, exactly the matching line is removed, the others keep their order, and the subtotal drops by that line's subtotal |
| Pos.Total | src/components/POS.tsx:83 | `subtotal - discount`, with no clamp at 0; CheckoutResets and BeginCheckout use it |
| Pos.ItemObjectsRoundTrip | src/components/TransactionModal.tsx:122-129 | every cart line can be read back from its item object |
| Pos.BeginCheckout | src/components/POS.tsx:85-104 | nothing is sent on an empty cart or while loading; otherwise the page is marked loading and the request carries every line in order (with the corrected keys), total = subtotal − discount, the discount and the payment method |
| Pos.CheckoutNotRepeated | src/components/POS.tsx:86-88 | a second checkout while the first is loading sends nothing |
| Pos.FinishCheckout | src/components/POS.tsx:116-126 | on success the cart is emptied, customer and mechanic cleared and the discount reset to 0; loading is cleared either way |
| Pos.CheckoutResets | src/components/POS.tsx:117-120 | after a successful checkout the total is 0 and a further checkout is refused |
| Pos.PosItemObjectAsWritten | src/components/POS.tsx:93-100 | the page's item object as written has no `type`, `id` or `name` key |
| Pos.PosPayloadLosesTypeAndId | src/components/POS.tsx:93-100 | the page's item objects as written lack `type` and `id`, so the server records no product line and leaves all stock as it was |
| Pos.PosPayloadDecrementsNothing | src/components/POS.tsx:93-100 | the whole as-written checkout request, read item by item as server.ts:230-239 does, leaves every product's stock as it was, for any cart |
| Pos.CheckoutItemDecrementsStock | server.ts:234-237 | with the keys the server reads, a product line's quantity comes off that product's stock |
| TransactionModal.UpdateQuantity | src/components/TransactionModal.tsx:97-105 | below 1 nothing changes; otherwise the matching lines get the quantity and price × quantity, and other lines are untouched |
| TransactionModal.UpdateQuantityUpdatesOne | src/components/TransactionModal.tsx:99-104 | with unique keys, only the matching line changes, and the order is kept |
| TransactionModal.UpdateQuantityKeepsInvariant | src/components/TransactionModal.tsx:97-105 | `updateQuantity` keeps the cart invariant and moves the subtotal by the changed line's difference |
| TransactionModal.AddItem | src/components/TransactionModal.tsx:79-95 | a new (id, type) is appended with quantity 1 and subtotal = price |
| TransactionModal.AddItemBumpsOne | src/components/TransactionModal.tsx:80-82 | with unique keys, an existing line alone gets quantity + 1 and price × (quantity + 1), whatever the stock; this is the function's branch, which the page's picker never reaches (PickedItemIsNew) |
| TransactionModal.AddItemKeepsInvariant | src/components/TransactionModal.tsx:79-95 | `addItem` keeps the cart invariant and raises the subtotal by one unit price |
| TransactionModal.AddNewItemKeepsInvariant | src/components/TransactionModal.tsx:84-93 | adding an item not yet listed keeps the invariant and adds the item's price to the subtotal |
| TransactionModal.AddListedItemKeepsInvariant | src/components/TransactionModal.tsx:80-83 | adding a listed item keeps the invariant and adds that line's price to the subtotal; the page's picker never reaches this branch (PickedItemIsNew) |
| TransactionModal.AddItemAgreesWithPos | src/components/TransactionModal.tsx:79-95 | the modal's `addItem` adds like the point-of-sale page except at a product's stock, where only the modal still adds; the page never reaches that branch, because its picker offers only unlisted items (PickedItemIsNew) |
| TransactionModal.RemoveItem | src/components/TransactionModal.tsx:107-109 | no line with the removed key is left, and the cart never grows |
| TransactionModal.RemoveItemEffect | src/components/TransactionModal.tsx:107-109 | on a valid cart, exactly the matching line is removed, in order, and the subtotal drops by its subtotal |
| TransactionModal.Submit | src/components/TransactionModal.tsx:111-134 | refused with no items; otherwise every line is sent in order with its fields unchanged, total = subtotal − discount |
| TransactionModal.OpenedFormRefused | src/components/TransactionModal.tsx:64-73 | the form as reset on opening cannot be submitted |
| TransactionModal.SubmitAgreesWithPos | src/components/TransactionModal.tsx:118-134 | the same cart and choices give the same request as the corrected point-of-sale checkout |
| TransactionModal.NegativeTotalSent | src/components/TransactionModal.tsx:77 | the total is not clamped: a discount of 80 on a 50 subtotal sends -30 |
| TransactionModal.Total | src/components/TransactionModal.tsx:76-77 | `subtotal - discount` over the selected items; NegativeTotalSent shows it is not clamped |
| TransactionModal.Lower | src/components/TransactionModal.tsx:150 | lower-casing keeps the length |
| TransactionModal.ContainsIffOccurs | src/components/TransactionModal.tsx:150 | `includes` holds exactly when the search text occurs at some position of the name |
| TransactionModal.Contains | src/components/TransactionModal.tsx:150 | `includes`; ContainsIffOccurs ties it to an occurrence at some position |
| TransactionModal.Filter | src/components/TransactionModal.tsx:149-152 | every entry kept matches the search and is not in the item list |
| TransactionModal.NameMatches | src/components/TransactionModal.tsx:150 | the lower-cased name includes the lower-cased search; EmptySearchMatchesAll shows an empty search matches every name |
| TransactionModal.Offered | src/components/TransactionModal.tsx:150-151 | an entry matches the search and is not yet in the item list; FilterMembers shows the filter keeps exactly these |
| TransactionModal.FilterAppend | src/components/TransactionModal.tsx:146-152 | filtering products then services is filtering each and concatenating |
| TransactionModal.FilterMembers | src/components/TransactionModal.tsx:149-152 | an entry is kept exactly when it is a candidate that matches and is not listed |
| TransactionModal.FilteredItems | src/components/TransactionModal.tsx:146-152 | at most 5 entries, each matching the search and not already in the item list |
| TransactionModal.Catalog | src/components/TransactionModal.tsx:146-148 | the products, then the services; FilterAppend and FilteredProductsFirst show the filter keeps that order |
| TransactionModal.FilteredItemsFromCatalog | src/components/TransactionModal.tsx:146-152 | every entry comes from the catalog, no product follows a service, and with fewer than 5 shown every offered entry is shown |
| TransactionModal.FilteredPrefix | src/components/TransactionModal.tsx:152 | `slice(0, 5)` keeps a prefix of the filtered catalog, all of it when fewer than 5 are shown |
| TransactionModal.FilteredEntriesFromCatalog | src/components/TransactionModal.tsx:146-152 | every entry shown is a catalog product or service |
| TransactionModal.FilteredProductsFirst | src/components/TransactionModal.tsx:146-148 | no product is shown after a service |
| TransactionModal.FilteredShortListComplete | src/components/TransactionModal.tsx:149-152 | with fewer than 5 shown, every offered product and service is shown |
| TransactionModal.EmptySearchMatchesAll | src/components/TransactionModal.tsx:150 | an empty search matches every name |
| TransactionModal.PickedItemIsNew | src/components/TransactionModal.tsx:146-152 | an item picked from the list (whose buttons, TransactionModal.tsx:273-277, are the only caller of `addItem`) is never in the item list yet, so `addItem` from the page always appends a new line with quantity 1 |
| Permissions.Upper | src/hooks/usePermission.ts:6 | upper-casing keeps the length and leaves no lower-case letter |
| Permissions.UpperIdempotent | src/hooks/usePermission.ts:6 | upper-casing an upper-cased role changes nothing |
| Permissions.NormalizeRole | src/hooks/usePermission.ts:6 | the upper-cased role, or the empty string when there is no user or no role |
| Permissions.RoleCaseInsensitive | src/hooks/usePermission.ts:6 | "admin", "Kasir" and "mekanik" normalise to the three roles |
| Permissions.FlagTable | src/hooks/usePermission.ts:10-18 | at most one of isAdmin, isKasir and isMekanik holds; the staff flags go with admin or cashier, and mechanic management with admin only |
| Permissions.FlagsOf | src/hooks/usePermission.ts:8-18 | the flags the hook returns for a normalised role; FlagTable and NamedRoleFlags state them |
| Permissions.NamedRoleFlags | src/hooks/usePermission.ts:14-18 | ADMIN has every capability, KASIR all but mechanic management, MEKANIK none |
| Permissions.ActionWarning | src/hooks/usePermission.ts:20-28 | a mechanic is warned "Only Admin/Cashier" for every action; roles other than cashier and mechanic get no warning |
| Permissions.WarningMatchesFlags | src/hooks/usePermission.ts:14-28 | for the three roles, no warning exactly when the matching flag holds; a cashier's only warning is "Only Admin", for the mechanic action |
| Permissions.UnknownRoleUnwarned | src/hooks/usePermission.ts:27 | any other role gets no warning although every flag is off |
| Permissions.SignedOutUnwarned | src/hooks/usePermission.ts:6 | without a user nothing is warned and nothing allowed |
| Permissions.MaskedValue | src/hooks/usePermission.ts:30-35 | the mask replaces the value exactly for a mechanic and a currency value |
| Permissions.MaskHidesAmounts | src/hooks/usePermission.ts:31-33 | to a mechanic all amounts look alike; to anyone else different amounts stay different |
| Permissions.DefaultKindUnmasked | src/hooks/usePermission.ts:30 | with the default kind nothing is masked |

## Left out

- The SQL date filters and SUM aggregates of the reports (server.ts:109-143, 277-278) are not modelled. Their results are inputs, with `None` for NULL.
- Prices, amounts and the discount are `REAL` columns (server.ts:32-33, 65-66, 79-80) and JS numbers on the pages (the discount comes from `Number(e.target.value)`, POS.tsx:245). Quantities, stock and min_stock are `INTEGER` columns (server.ts:34-35, 78). All are `int` here, so fractional money and floating-point rounding are not modelled.
- SaleRecorder.SaleStore.RecordSale: takes `items` as a sequence. A request with no `items` or a non-array `items` makes `for (const item of items)` (server.ts:230) throw inside the transaction, so the sale row is rolled back and the request fails with a 500; the model cannot express that request.
- `Date.now()` and `CURRENT_TIMESTAMP` are parameters of `RecordSale` (`clockMs`, `now`). One `now` is used for both `created_at` and `last_service`.
- Foreign-key enforcement follows better-sqlite3's default build, which turns foreign keys on. A build or pragma that turns them off would record sales naming unknown customers or mechanics; that configuration is not modelled.
- The store's own failures (a full disk, a constraint the model does not know) are chosen by the caller through a `Fault` parameter. The UNIQUE invoice number and the two foreign keys of the sale row are the rejections the model works out itself.
- SaleRecorder.SaleStore.UpdateProduct: the `code`, `name`, `category_id` and price columns are not held by the store, so whether the UNIQUE `code` or the `category_id` foreign key rejects the statement is the caller's `rejected` argument rather than worked out from the table.
- Pos.BeginCheckout: builds its item objects with the keys the server reads (`id`, `type`, `name`, as `Wire.ItemObject` does), not the page's `item_id`, `item_type` and `item_name` (POS.tsx:94-96). The page as written is `Pos.PosItemObjectAsWritten`; see "## Findings".
- SaleRecorder.ReadItem: requires `quantity`, `price` and `subtotal` to be numbers. A request that sends other JSON types there is not modelled, and a non-string `type` or non-numeric `id` reads as absent.
- A `customer_id` of another JSON type (a string, say) is not modelled. Truthiness is checked on an optional integer.
- `toLowerCase` and `toUpperCase` are modelled on ASCII letters only. Non-ASCII case mapping (`ı` → `I`, `ß` → `SS`) is not modelled, so `"admın"` is an unknown role here while the hook makes it ADMIN; `Upper` and `Lower` keep the length only because of this.
- Concurrent requests, and the HTTP boundary between the pages and the server, are not modelled. The pages' requests are values, and the server's reads of them are functions.
- React state, rendering, the modal's `setItemSearch('')` after adding, the receipt printing, `alert` messages and data fetching are not modelled.
- `src/lib/api.ts` unwraps `data.data` from every response, while `server.ts` answers with bare objects (server.ts:249). Responses are not modelled, so this mismatch is not either.
- The other CRUD routes, the inventory, customer and mechanic forms and their name filters, and the customer and mechanic pickers of the modal are not part of this model.
- The low-stock badge of the inventory page (`stock < min_stock`) and the dashboard count (`stock <= min_stock`) are kept apart, as the source has them. `Reports.BadgeAndCountDisagreeAtMinimum` states where they differ.

## Findings

| source | as written | input that shows it | evidently intended | confidence | as-written member | corrected member |
|---|---|---|---|---|---|---|
| src/components/POS.tsx:93-100 | the point-of-sale checkout sends each item as `item_type`, `item_id`, `item_name`, but the server reads `item.type` and `item.id` (server.ts:234-236) | any cart with a product line, e.g. one unit of product 1 | the item keys the server reads (`type`, `id`), as the new-transaction modal sends them, so product stock is decremented and line items name their product | high, not executed | Pos.PosPayloadDecrementsNothing | Pos.CheckoutItemDecrementsStock |

`Pos.BeginCheckout` builds its items with the corrected keys (`Wire.ItemObject`).
`TransactionModal.SubmitAgreesWithPos` shows that the two screens then send the same request.

=== FILE: cart_lines.dfy ===
/**
 * What the two checkout screens (the POS page and the new-transaction modal)
 * have in common: a catalog entry, a cart line keyed by (id, type), and the
 * `find`, `filter`, `map` and `reduce` steps their cart handlers are built from.
 * Money and quantities are integers.
 */
module CartLines {
  import opened Wrappers

  datatype ItemType = Product | Service

  /** The string a line carries in its `type` field. */
  function TypeName(t: ItemType): string {
    match t
    case Product => "product"
    case Service => "service"
  }

  /** A catalog entry: a product row (with its sell price and stock) or a service row. */
  datatype Item =
    | ProductItem(id: int, name: string, sellPrice: int, stock: int)
    | ServiceItem(id: int, name: string, price: int)
  {
    function Type(): ItemType { if ProductItem? then Product else Service }

    /** The unit price a new cart line takes: `sell_price` for products, `price` for services. */
    function UnitPrice(): int { if ProductItem? then sellPrice else price }
  }

  type ProductRow = i: Item | i.ProductItem? witness ProductItem(0, "", 0, 0)
  type ServiceRow = i: Item | i.ServiceItem? witness ServiceItem(0, "", 0)

  /** Cart lines are identified by the pair (id, type). */
  datatype Key = Key(id: int, itemType: ItemType)

  datatype Line = Line(id: int, itemType: ItemType, name: string, price: int, quantity: int, subtotal: int)

  function KeyOf(l: Line): Key { Key(l.id, l.itemType) }

  function ItemKey(item: Item): Key { Key(item.id, item.Type()) }

  /** The line both screens append for an item not yet in the cart. */
  function NewLine(item: Item): Line {
    Line(item.id, item.Type(), item.name, item.UnitPrice(), 1, item.UnitPrice())
  }

  /** No two lines share a key. */
  ghost predicate UniqueKeys(cart: seq<Line>) {
    forall i, j :: 0 <= i < j < |cart| ==> DistinctKeys(cart, i, j)
  }

  ghost predicate DistinctKeys(cart: seq<Line>, i: int, j: int)
    requires 0 <= i < |cart| && 0 <= j < |cart|
  {
    KeyOf(cart[i]) != KeyOf(cart[j])
  }

  /** A line's quantity is at least 1 and its subtotal is quantity times price. */
  ghost predicate Priced(l: Line) {
    1 <= l.quantity && l.subtotal == l.quantity * l.price
  }

  /** The cart invariant both screens keep. */
  ghost predicate Invariant(cart: seq<Line>) {
    UniqueKeys(cart) && forall i :: 0 <= i < |cart| ==> Priced(cart[i])
  }

  /** `cart.find(i => i.id === id && i.type === type)`, as the index of the first match. */
  function IndexOf(cart: seq<Line>, k: Key): (r: Option<nat>)
    ensures r.Some? ==> r.value < |cart| && KeyOf(cart[r.value]) == k
    ensures r.Some? ==> forall j :: 0 <= j < r.value ==> KeyOf(cart[j]) != k
    ensures r.None? <==> forall j :: 0 <= j < |cart| ==> KeyOf(cart[j]) != k
  {
    if |cart| == 0 then None
    else if KeyOf(cart[0]) == k then Some(0)
    else match IndexOf(cart[1..], k)
      case None => None
      case Some(i) => Some(i + 1)
  }

  /** In a cart with unique keys, the line found for a key is the only one with that key. */
  lemma IndexOfUnique(cart: seq<Line>, j: nat)
    requires UniqueKeys(cart) && j < |cart|
    ensures IndexOf(cart, KeyOf(cart[j])) == Some(j)
  {
    var k := KeyOf(cart[j]);
    var found := IndexOf(cart, k);
    assert found.Some?;
    var r := found.value;
    assert r <= j;
    assert r < j ==> DistinctKeys(cart, r, j);
  }

  /** Two different lines of a cart with unique keys have different keys. */
  lemma KeysDiffer(cart: seq<Line>, i: nat, j: nat)
    requires UniqueKeys(cart) && i < |cart| && j < |cart| && i != j
    ensures KeyOf(cart[i]) != KeyOf(cart[j])
  {
    if i < j {
      assert DistinctKeys(cart, i, j);
    } else {
      assert DistinctKeys(cart, j, i);
    }
  }

  /** `cart.filter(i => !(i.id === id && i.type === type))` */
  function Without(cart: seq<Line>, k: Key): (r: seq<Line>)
    ensures |r| <= |cart|
    ensures forall i :: 0 <= i < |r| ==> KeyOf(r[i]) != k
  {
    if |cart| == 0 then []
    else (if KeyOf(cart[0]) == k then [] else [cart[0]]) + Without(cart[1..], k)
  }

  /** A line survives the filter exactly when it was in the cart and carries another key. */
  lemma {:induction false} WithoutMembers(cart: seq<Line>, k: Key, l: Line)
    ensures l in Without(cart, k) <==> l in cart && KeyOf(l) != k
  {
    if |cart| > 0 {
      WithoutMembers(cart[1..], k, l);
      assert cart == [cart[0]] + cart[1..];
    }
  }

  /** Filtering out a key that no line carries gives back the same cart. */
  lemma {:induction false} WithoutAbsent(cart: seq<Line>, k: Key)
    requires forall j :: 0 <= j < |cart| ==> KeyOf(cart[j]) != k
    ensures Without(cart, k) == cart
  {
    if |cart| > 0 {
      WithoutAbsent(cart[1..], k);
      assert [cart[0]] + cart[1..] == cart;
    }
  }

  /** The tail of a cart with unique keys has unique keys, none of them the head's. */
  lemma UniqueTail(cart: seq<Line>)
    requires UniqueKeys(cart) && 0 < |cart|
    ensures UniqueKeys(cart[1..])
    ensures forall j :: 0 <= j < |cart| - 1 ==> KeyOf(cart[1..][j]) != KeyOf(cart[0])
  {
    var tail := cart[1..];
    forall a, b | 0 <= a < b < |tail| ensures DistinctKeys(tail, a, b) {
      assert tail[a] == cart[a + 1] && tail[b] == cart[b + 1];
      assert DistinctKeys(cart, a + 1, b + 1);
    }
    forall j | 0 <= j < |tail| ensures KeyOf(tail[j]) != KeyOf(cart[0]) {
      assert tail[j] == cart[j + 1];
      assert DistinctKeys(cart, 0, j + 1);
    }
  }

  /** Looking up a key other than the head's searches the tail, one position further on. */
  lemma IndexOfTail(cart: seq<Line>, k: Key)
    requires 0 < |cart| && KeyOf(cart[0]) != k
    ensures IndexOf(cart, k).None? <==> IndexOf(cart[1..], k).None?
    ensures IndexOf(cart, k).Some? ==> IndexOf(cart, k).value == IndexOf(cart[1..], k).value + 1
  {
  }

  lemma SpliceCons(head: Line, tail: seq<Line>, i: nat)
    requires i < |tail|
    ensures [head] + (tail[..i] + tail[i + 1..]) == ([head] + tail)[..i + 1] + ([head] + tail)[i + 2..]
  {
    var cart := [head] + tail;
    assert cart[..i + 1] == [head] + tail[..i];
    assert cart[i + 2..] == tail[i + 1..];
  }

  /**
   * In a cart with unique keys, removal takes out exactly the line with that key
   * (if any) and keeps every other line in its order.
   */
  lemma {:induction false} WithoutRemovesOne(cart: seq<Line>, k: Key)
    requires UniqueKeys(cart)
    ensures IndexOf(cart, k).None? ==> Without(cart, k) == cart
    ensures IndexOf(cart, k).Some? ==>
      Without(cart, k) == cart[..IndexOf(cart, k).value] + cart[IndexOf(cart, k).value + 1..]
  {
    if |cart| == 0 {
      return;
    }
    var head, tail := cart[0], cart[1..];
    assert cart == [head] + tail;
    UniqueTail(cart);
    if KeyOf(head) == k {
      assert Without(cart, k) == Without(tail, k);
      WithoutAbsent(tail, k);
      assert cart[..0] + cart[1..] == tail;
    } else {
      assert Without(cart, k) == [head] + Without(tail, k);
      WithoutRemovesOne(tail, k);
      IndexOfTail(cart, k);
      if IndexOf(tail, k).Some? {
        SpliceCons(head, tail, IndexOf(tail, k).value);
      }
    }
  }

  /** `cart.map(i => i.id === id && i.type === type ? f(i) : i)` */
  function MapKey(cart: seq<Line>, k: Key, f: Line -> Line): seq<Line> {
    seq(|cart|, j requires 0 <= j < |cart| => if KeyOf(cart[j]) == k then f(cart[j]) else cart[j])
  }

  /**
   * In a cart with unique keys, mapping over the key changes exactly the line
   * with that key (if any), and every other line and the order stay as they were.
   */
  lemma MapKeyUpdatesOne(cart: seq<Line>, k: Key, f: Line -> Line)
    requires UniqueKeys(cart)
    ensures IndexOf(cart, k).None? ==> MapKey(cart, k, f) == cart
    ensures IndexOf(cart, k).Some? ==>
      MapKey(cart, k, f) == cart[IndexOf(cart, k).value := f(cart[IndexOf(cart, k).value])]
  {
    if IndexOf(cart, k).Some? {
      var i := IndexOf(cart, k).value;
      forall j | 0 <= j < |cart| && j != i ensures KeyOf(cart[j]) != k {
        KeysDiffer(cart, i, j);
      }
    }
  }

  /** `cart.reduce((acc, curr) => acc + curr.subtotal, 0)`: a left fold. */
  function Subtotal(cart: seq<Line>): int {
    if |cart| == 0 then 0 else Subtotal(cart[..|cart| - 1]) + cart[|cart| - 1].subtotal
  }

  lemma {:induction false} SubtotalAppend(a: seq<Line>, b: seq<Line>)
    ensures Subtotal(a + b) == Subtotal(a) + Subtotal(b)
  {
    if |b| == 0 {
      assert a + b == a;
    } else {
      assert (a + b)[..|a + b| - 1] == a + b[..|b| - 1];
      SubtotalAppend(a, b[..|b| - 1]);
    }
  }

  lemma SubtotalSingle(l: Line)
    ensures Subtotal([l]) == l.subtotal
  {
    assert [l][..0] == [];
  }

  /** Replacing one line changes the sum by the difference of the two subtotals. */
  lemma {:induction false} SubtotalReplace(cart: seq<Line>, i: nat, l: Line)
    requires i < |cart|
    ensures Subtotal(cart[i := l]) == Subtotal(cart) - cart[i].subtotal + l.subtotal
  {
    var pre, post := cart[..i], cart[i + 1..];
    assert cart == pre + [cart[i]] + post;
    assert cart[i := l] == pre + [l] + post;
    SubtotalAppend(pre + [cart[i]], post);
    SubtotalAppend(pre + [l], post);
    SubtotalAppend(pre, [cart[i]]);
    SubtotalAppend(pre, [l]);
    SubtotalSingle(cart[i]);
    SubtotalSingle(l);
  }

  /** Dropping one line lowers the sum by that line's subtotal. */
  lemma {:induction false} SubtotalDrop(cart: seq<Line>, i: nat)
    requires i < |cart|
    ensures Subtotal(cart[..i] + cart[i + 1..]) == Subtotal(cart) - cart[i].subtotal
  {
    var pre, post := cart[..i], cart[i + 1..];
    assert cart == pre + [cart[i]] + post;
    SubtotalAppend(pre + [cart[i]], post);
    SubtotalAppend(pre, [cart[i]]);
    SubtotalAppend(pre, post);
    SubtotalSingle(cart[i]);
  }

  /** A cart whose lines all keep the invariant has a non-negative sum when prices are non-negative. */
  lemma {:induction false} SubtotalNonNegative(cart: seq<Line>)
    requires forall i :: 0 <= i < |cart| ==> Priced(cart[i]) && 0 <= cart[i].price
    ensures 0 <= Subtotal(cart)
  {
    if |cart| > 0 {
      SubtotalNonNegative(cart[..|cart| - 1]);
      var l := cart[|cart| - 1];
      assert Priced(l) && 0 <= l.price;
      assert 0 <= l.quantity * l.price;
    }
  }

  /** Replacing a line by a priced line with the same key keeps the invariant. */
  lemma InvariantReplace(cart: seq<Line>, i: nat, l: Line)
    requires Invariant(cart) && i < |cart|
    requires KeyOf(l) == KeyOf(cart[i]) && Priced(l)
    ensures Invariant(cart[i := l])
  {
    var r := cart[i := l];
    forall a, b | 0 <= a < b < |r| ensures DistinctKeys(r, a, b) {
      assert DistinctKeys(cart, a, b);
    }
  }

  /** Appending a priced line with a key the cart does not hold keeps the invariant. */
  lemma InvariantAppend(cart: seq<Line>, l: Line)
    requires Invariant(cart) && IndexOf(cart, KeyOf(l)).None? && Priced(l)
    ensures Invariant(cart + [l])
  {
    var r := cart + [l];
    forall a, b | 0 <= a < b < |r| ensures DistinctKeys(r, a, b) {
      if b < |cart| {
        assert DistinctKeys(cart, a, b);
      }
    }
  }

  /** Removing a line keeps the invariant. */
  lemma InvariantWithout(cart: seq<Line>, k: Key)
    requires Invariant(cart)
    ensures Invariant(Without(cart, k))
  {
    WithoutRemovesOne(cart, k);
    if IndexOf(cart, k).Some? {
      InvariantSplice(cart, IndexOf(cart, k).value);
    }
  }

  /** Cutting one line out of a valid cart leaves a valid cart. */
  lemma InvariantSplice(cart: seq<Line>, i: nat)
    requires Invariant(cart) && i < |cart|
    ensures Invariant(cart[..i] + cart[i + 1..])
  {
    var r := cart[..i] + cart[i + 1..];
    assert |r| == |cart| - 1;
    assert forall a :: 0 <= a < |r| ==> r[a] == cart[if a < i then a else a + 1];
    forall a, b | 0 <= a < b < |r| ensures DistinctKeys(r, a, b) {
      var a', b' := if a < i then a else a + 1, if b < i then b else b + 1;
      assert DistinctKeys(cart, a', b');
    }
  }

  /** Multiplying out one more unit. */
  lemma OneMoreUnit(price: int, quantity: int)
    ensures price * (quantity + 1) == quantity * price + price
  {
  }

  /** One more unit on the line at `i` keeps the invariant and adds the line's price to the subtotal. */
  lemma OneMoreUnitKeepsInvariant(cart: seq<Line>, i: nat)
    requires Invariant(cart) && i < |cart|
    ensures var l := cart[i].(quantity := cart[i].quantity + 1, subtotal := cart[i].price * (cart[i].quantity + 1));
      Invariant(cart[i := l]) && Subtotal(cart[i := l]) == Subtotal(cart) + cart[i].price
  {
    var l := cart[i].(quantity := cart[i].quantity + 1, subtotal := cart[i].price * (cart[i].quantity + 1));
    OneMoreUnit(cart[i].price, cart[i].quantity);
    assert l.quantity * l.price == cart[i].quantity * cart[i].price + cart[i].price;
    InvariantReplace(cart, i, l);
    SubtotalReplace(cart, i, l);
  }

  /** Appending the line of an item the cart does not hold keeps the invariant and adds the item's unit price. */
  lemma NewLineKeepsInvariant(cart: seq<Line>, item: Item)
    requires Invariant(cart) && IndexOf(cart, ItemKey(item)).None?
    ensures Invariant(cart + [NewLine(item)]) && Subtotal(cart + [NewLine(item)]) == Subtotal(cart) + item.UnitPrice()
  {
    InvariantAppend(cart, NewLine(item));
    SubtotalAppend(cart, [NewLine(item)]);
    SubtotalSingle(NewLine(item));
  }
}

=== FILE: invoice.dfy ===
/**
 * Invoice numbers of the sale recorder: `INV-` followed by the decimal digits of
 * the millisecond clock reading taken when the request arrives.
 */
module Invoice {
  import opened Wrappers

  predicate IsDigit(c: char) {
    '0' <= c <= '9'
  }

  predicate AllDigits(s: string) {
    forall i :: 0 <= i < |s| ==> IsDigit(s[i])
  }

  function DigitChar(d: nat): (c: char)
    requires d < 10
    ensures IsDigit(c)
  {
    ('0' as int + d) as char
  }

  function DigitValue(c: char): nat
    requires IsDigit(c)
  {
    c as int - '0' as int
  }

  /** The template-literal rendering of a non-negative integer: decimal digits, no leading zero. */
  function Decimal(n: nat): (s: string)
    ensures 1 <= |s| && AllDigits(s)
    ensures 1 < |s| ==> s[0] != '0'
  {
    if n < 10 then [DigitChar(n)] else Decimal(n / 10) + [DigitChar(n % 10)]
  }

  /** The number a string of decimal digits denotes. */
  function DigitsValue(s: string): nat
    requires AllDigits(s)
  {
    if |s| == 0 then 0 else 10 * DigitsValue(s[..|s| - 1]) + DigitValue(s[|s| - 1])
  }

  lemma {:induction false} DecimalRoundTrip(n: nat)
    ensures DigitsValue(Decimal(n)) == n
  {
    if n >= 10 {
      var s := Decimal(n);
      assert s[..|s| - 1] == Decimal(n / 10);
      DecimalRoundTrip(n / 10);
    }
  }

  const Prefix: string := "INV-"

  /** `INV-${Date.now()}` for the clock reading `ms`. */
  function InvoiceNumber(ms: nat): string {
    Prefix + Decimal(ms)
  }

  /** Recovers the clock reading from an invoice number; `None` for any other string. */
  function ParseInvoice(s: string): Option<nat> {
    if |Prefix| < |s| && s[..|Prefix|] == Prefix && AllDigits(s[|Prefix|..])
    then Some(DigitsValue(s[|Prefix|..]))
    else None
  }

  lemma InvoiceRoundTrip(ms: nat)
    ensures ParseInvoice(InvoiceNumber(ms)) == Some(ms)
  {
    var s := InvoiceNumber(ms);
    assert s[..|Prefix|] == Prefix;
    assert s[|Prefix|..] == Decimal(ms);
    DecimalRoundTrip(ms);
  }

  /** Two invoice numbers coincide exactly when the two clock readings do. */
  lemma InvoiceInjective(a: nat, b: nat)
    ensures InvoiceNumber(a) == InvoiceNumber(b) <==> a == b
  {
    if InvoiceNumber(a) == InvoiceNumber(b) {
      InvoiceRoundTrip(a);
      InvoiceRoundTrip(b);
    }
  }
}

=== FILE: permissions.dfy ===
/**
 * The role-based permission hook of the client (`usePermission`): the role
 * string is normalised to upper case, and every flag, warning and masked value
 * is derived from it. The three roles are `ADMIN`, `KASIR` (cashier) and
 * `MEKANIK` (mechanic); any other string, including the empty one for a missing
 * user or role, gets no flag at all.
 */
module Permissions {
  import opened Wrappers

  datatype User = User(role: Option<string>)

  const Admin: string := "ADMIN"
  const Kasir: string := "KASIR"
  const Mekanik: string := "MEKANIK"

  function UpperChar(c: char): char {
    if 'a' <= c <= 'z' then (c as int - 32) as char else c
  }

  /** `toUpperCase`, on the ASCII letters. */
  function Upper(s: string): (r: string)
    ensures |r| == |s|
    ensures forall i :: 0 <= i < |s| ==> !('a' <= r[i] <= 'z')
  {
    seq(|s|, i requires 0 <= i < |s| => UpperChar(s[i]))
  }

  /** Upper-casing twice is upper-casing once. */
  lemma UpperIdempotent(s: string)
    ensures Upper(Upper(s)) == Upper(s)
  {
  }

  /** `user?.role?.toUpperCase() || ''`: the empty string when there is no user or no role. */
  function NormalizeRole(user: Option<User>): (role: string)
    ensures user.None? || user.value.role.None? ==> role == ""
    ensures user.Some? && user.value.role.Some? ==> role == Upper(user.value.role.value)
  {
    match user
    case None => ""
    case Some(u) =>
      match u.role
      case None => ""
      case Some(r) => Upper(r)
  }

  /** The role is matched whatever its case: "admin", "Admin" and "ADMIN" are all the administrator. */
  lemma RoleCaseInsensitive()
    ensures NormalizeRole(Some(User(Some("admin")))) == Admin
    ensures NormalizeRole(Some(User(Some("Kasir")))) == Kasir
    ensures NormalizeRole(Some(User(Some("mekanik")))) == Mekanik
  {
  }

  /** The flags the hook returns for a normalised role. */
  datatype Flags = Flags(
    role: string,
    isAdmin: bool, isKasir: bool, isMekanik: bool,
    canManageInventory: bool, canManageCustomers: bool, canManageTransactions: bool,
    canManageMechanics: bool, canViewFinance: bool)

  function FlagsOf(role: string): Flags {
    var staff := role == Admin || role == Kasir;
    Flags(role, role == Admin, role == Kasir, role == Mekanik, staff, staff, staff, role == Admin, staff)
  }

  /**
   * At most one role flag holds; administrators and cashiers manage inventory,
   * customers and transactions and see the finances; only administrators
   * manage mechanics; mechanics and unknown roles may do none of these.
   */
  lemma FlagTable(role: string)
    ensures var f := FlagsOf(role);
      && (f.isAdmin ==> !f.isKasir && !f.isMekanik) && (f.isKasir ==> !f.isMekanik)
      && (f.canManageInventory <==> f.isAdmin || f.isKasir)
      && f.canManageCustomers == f.canManageInventory
      && f.canManageTransactions == f.canManageInventory
      && f.canViewFinance == f.canManageInventory
      && (f.canManageMechanics <==> f.isAdmin)
      && (f.canManageMechanics ==> f.canManageInventory)
  {
  }

  /** ADMIN has every capability, KASIR every one but managing mechanics, MEKANIK none. */
  lemma NamedRoleFlags()
    ensures var a := FlagsOf(Admin);
      a.isAdmin && a.canManageInventory && a.canManageCustomers && a.canManageTransactions
      && a.canManageMechanics && a.canViewFinance
    ensures var k := FlagsOf(Kasir);
      k.isKasir && k.canManageInventory && k.canManageCustomers && k.canManageTransactions
      && !k.canManageMechanics && k.canViewFinance
    ensures var m := FlagsOf(Mekanik);
      m.isMekanik && !m.canManageInventory && !m.canManageCustomers && !m.canManageTransactions
      && !m.canManageMechanics && !m.canViewFinance
  {
  }

  datatype Action = InventoryAction | CustomerAction | MechanicAction | TransactionAction | FinanceAction

  /** The flag that governs an action. */
  function MayPerform(f: Flags, a: Action): bool {
    match a
    case InventoryAction => f.canManageInventory
    case CustomerAction => f.canManageCustomers
    case MechanicAction => f.canManageMechanics
    case TransactionAction => f.canManageTransactions
    case FinanceAction => f.canViewFinance
  }

  const StaffOnly: string := "Only Admin/Cashier can perform this action"
  const AdminOnly: string := "Only Admin can perform this action"

  /** `getActionWarning(action)`: a message for a mechanic, and for a cashier managing mechanics; otherwise none. */
  function ActionWarning(role: string, a: Action): (r: Option<string>)
    ensures role == Mekanik ==> r == Some(StaffOnly)
    ensures role != Mekanik && role != Kasir ==> r.None?
  {
    if role == Mekanik then Some(StaffOnly)
    else if role == Kasir && a == MechanicAction then Some(AdminOnly)
    else None
  }

  /**
   * For the three known roles, an action draws a warning exactly when its flag
   * is off, and the warning names who may perform it.
   */
  lemma WarningMatchesFlags(role: string, a: Action)
    requires role == Admin || role == Kasir || role == Mekanik
    ensures ActionWarning(role, a).None? <==> MayPerform(FlagsOf(role), a)
    ensures ActionWarning(role, a) == Some(AdminOnly) <==> role == Kasir && a == MechanicAction
    ensures role == Kasir ==> ActionWarning(role, a).None? || ActionWarning(role, a) == Some(AdminOnly)
  {
  }

  /** Any other role, the empty one included, draws no warning although every flag is off. */
  lemma UnknownRoleUnwarned(role: string, a: Action)
    requires role != Admin && role != Kasir && role != Mekanik
    ensures ActionWarning(role, a).None? && !MayPerform(FlagsOf(role), a)
  {
  }

  /** Without a user the hook warns of nothing and allows nothing. */
  lemma SignedOutUnwarned(a: Action)
    ensures ActionWarning(NormalizeRole(None), a).None? && !MayPerform(FlagsOf(NormalizeRole(None)), a)
  {
  }

  /** A value shown on a page: a string or a number. */
  datatype Shown = Text(s: string) | Number(n: int)

  datatype Kind = Currency | PlainText

  const Mask: string := "••••••"

  /** `getMaskedValue(value, type = 'text')`: mechanics see a mask in place of every currency amount. */
  function MaskedValue(role: string, value: Shown, kind: Kind := PlainText): (r: Shown)
    ensures role == Mekanik && kind == Currency ==> r == Text(Mask)
    ensures role != Mekanik || kind != Currency ==> r == value
  {
    if role == Mekanik && kind == Currency then Text(Mask) else value
  }

  /** A masked amount reveals nothing: two amounts look alike to a mechanic, and differ for anyone else. */
  lemma MaskHidesAmounts(role: string, a: int, b: int)
    ensures role == Mekanik ==> MaskedValue(role, Number(a), Currency) == MaskedValue(role, Number(b), Currency)
    ensures role != Mekanik && a != b ==> MaskedValue(role, Number(a), Currency) != MaskedValue(role, Number(b), Currency)
  {
  }

  /** Left at its default kind, nothing is masked, for any role. */
  lemma DefaultKindUnmasked(role: string, value: Shown)
    ensures MaskedValue(role, value) == value
  {
  }
}

=== FILE: pos.dfy ===
/**
 * The point-of-sale page: its cart handlers (`addToCart`, `updateQuantity`,
 * `removeFromCart`), the subtotal and total, and the checkout guard, request
 * and reset. Each handler is a function from the old cart to the new one.
 * Product quantities are capped at the stock the catalog shows, and quantity
 * changes never go below 1.
 */
module Pos {
  import opened Wrappers
  import opened CartLines
  import opened Wire
  import SaleRecorder

  /** One more unit on an existing line; the subtotal is recomputed from the line's own price. */
  function Bumped(l: Line): Line {
    l.(quantity := l.quantity + 1, subtotal := (l.quantity + 1) * l.price)
  }

  /** `type === 'product' && existing.quantity >= item.stock` */
  predicate AtStockCap(line: Line, item: Item) {
    item.ProductItem? && line.quantity >= item.stock
  }

  /**
   * `addToCart`: a new (id, type) is appended with quantity 1; an existing one
   * gets one more unit, unless it is a product line already at the item's stock.
   */
  function AddToCart(cart: seq<Line>, item: Item): (r: seq<Line>)
    ensures IndexOf(cart, ItemKey(item)).None? ==>
      |r| == |cart| + 1 && r[..|cart|] == cart
      && r[|cart|] == Line(item.id, item.Type(), item.name, item.UnitPrice(), 1, item.UnitPrice())
    ensures IndexOf(cart, ItemKey(item)).Some? && AtStockCap(cart[IndexOf(cart, ItemKey(item)).value], item) ==>
      r == cart
    ensures |r| <= |cart| + 1
  {
    match IndexOf(cart, ItemKey(item))
    case Some(i) => if AtStockCap(cart[i], item) then cart else MapKey(cart, ItemKey(item), Bumped)
    case None => cart + [NewLine(item)]
  }

  /** Adding to an existing line that is not at the cap changes that line alone, by one unit. */
  lemma AddToCartBumpsOne(cart: seq<Line>, item: Item)
    requires UniqueKeys(cart) && IndexOf(cart, ItemKey(item)).Some?
    requires !AtStockCap(cart[IndexOf(cart, ItemKey(item)).value], item)
    ensures var i := IndexOf(cart, ItemKey(item)).value;
      AddToCart(cart, item) == cart[i := cart[i].(quantity := cart[i].quantity + 1,
                                                     subtotal := (cart[i].quantity + 1) * cart[i].price)]
  {
    var k := ItemKey(item);
    var i := IndexOf(cart, k).value;
    assert AddToCart(cart, item) == MapKey(cart, k, Bumped);
    MapKeyUpdatesOne(cart, k, Bumped);
  }

  /**
   * `addToCart` keeps the cart invariant and raises the subtotal by one unit
   * price: the item's price for a new line, the line's price for an existing
   * one, nothing at the cap.
   */
  lemma AddToCartKeepsInvariant(cart: seq<Line>, item: Item)
    requires Invariant(cart)
    ensures Invariant(AddToCart(cart, item))
    ensures Subtotal(AddToCart(cart, item)) == Subtotal(cart) +
      match IndexOf(cart, ItemKey(item))
      case None => item.UnitPrice()
      case Some(i) => if AtStockCap(cart[i], item) then 0 else cart[i].price
  {
    var found := IndexOf(cart, ItemKey(item));
    if found.None? {
      assert AddToCart(cart, item) == cart + [NewLine(item)];
      NewLineKeepsInvariant(cart, item);
    } else if !AtStockCap(cart[found.value], item) {
      var i := found.value;
      var l := cart[i].(quantity := cart[i].quantity + 1, subtotal := cart[i].price * (cart[i].quantity + 1));
      assert AddToCart(cart, item) == cart[i := l] by {
        AddToCartBumpsOne(cart, item);
        assert Bumped(cart[i]) == l;
      }
      assert Invariant(cart[i := l]) && Subtotal(cart[i := l]) == Subtotal(cart) + cart[i].price by {
        OneMoreUnitKeepsInvariant(cart, i);
      }
    } else {
      assert AddToCart(cart, item) == cart;
    }
  }

  /** A product line that was within the item's stock stays within it after `addToCart`. */
  lemma AddToCartWithinStock(cart: seq<Line>, item: Item)
    requires UniqueKeys(cart) && item.ProductItem? && IndexOf(cart, ItemKey(item)).Some?
    requires cart[IndexOf(cart, ItemKey(item)).value].quantity <= item.stock
    ensures AddToCart(cart, item)[IndexOf(cart, ItemKey(item)).value].quantity <= item.stock
  {
    if !AtStockCap(cart[IndexOf(cart, ItemKey(item)).value], item) {
      AddToCartBumpsOne(cart, item);
    }
  }

  /** `products.find(p => p.id === id)` */
  function FindProduct(products: seq<ProductRow>, id: int): (r: Option<ProductRow>)
    ensures r.Some? ==> r.value in products && r.value.id == id
    ensures r.None? ==> forall j :: 0 <= j < |products| ==> products[j].id != id
  {
    if |products| == 0 then None
    else if products[0].id == id then Some(products[0])
    else FindProduct(products[1..], id)
  }

  /** `find` returns the first product with the id: none before position `j` when `j` holds one. */
  lemma {:induction false} FindProductFirst(products: seq<ProductRow>, id: int, j: nat)
    requires j < |products| && products[j].id == id
    ensures FindProduct(products, id).Some? && FindProduct(products, id).value in products[..j + 1]
  {
    if products[0].id != id {
      FindProductFirst(products[1..], id, j - 1);
      assert products[1..][..j] == products[1..j + 1];
    }
  }

  /** `prod && newQty > prod.stock`: the catalog knows the product and has less stock. */
  predicate ExceedsStock(products: seq<ProductRow>, id: int, quantity: int) {
    match FindProduct(products, id)
    case Some(p) => quantity > p.stock
    case None => false
  }

  function Max(a: int, b: int): int {
    if a < b then b else a
  }

  /** The line after a change by `delta`: `Math.max(1, quantity + delta)`, refused when a product's stock is exceeded. */
  function Adjusted(l: Line, products: seq<ProductRow>, delta: int): Line {
    var newQty := Max(1, l.quantity + delta);
    if l.itemType == Product && ExceedsStock(products, l.id, newQty) then l
    else l.(quantity := newQty, subtotal := newQty * l.price)
  }

  /** `updateQuantity(id, type, delta)` */
  function UpdateQuantity(cart: seq<Line>, products: seq<ProductRow>, id: int, t: ItemType, delta: int): (r: seq<Line>)
    ensures |r| == |cart|
    ensures forall j :: 0 <= j < |cart| && KeyOf(cart[j]) != Key(id, t) ==> r[j] == cart[j]
    ensures forall j :: 0 <= j < |cart| ==> r[j] == cart[j] || 1 <= r[j].quantity
  {
    MapKey(cart, Key(id, t), l => Adjusted(l, products, delta))
  }

  /**
   * On a cart with unique keys, `updateQuantity` sets the matching line to
   * max(1, quantity + delta) with its subtotal, unless that product's catalog
   * stock is exceeded, in which case the cart is unchanged.
   */
  lemma UpdateQuantityEffect(cart: seq<Line>, products: seq<ProductRow>, id: int, t: ItemType, delta: int)
    requires UniqueKeys(cart)
    ensures IndexOf(cart, Key(id, t)).None? ==> UpdateQuantity(cart, products, id, t, delta) == cart
    ensures IndexOf(cart, Key(id, t)).Some? ==>
      var i := IndexOf(cart, Key(id, t)).value;
      var newQty := Max(1, cart[i].quantity + delta);
      UpdateQuantity(cart, products, id, t, delta) ==
        if t == Product && ExceedsStock(products, id, newQty) then cart
        else cart[i := cart[i].(quantity := newQty, subtotal := newQty * cart[i].price)]
  {
    MapKeyUpdatesOne(cart, Key(id, t), l => Adjusted(l, products, delta));
    if IndexOf(cart, Key(id, t)).Some? {
      var i := IndexOf(cart, Key(id, t)).value;
      if Adjusted(cart[i], products, delta) == cart[i] {
        assert cart[i := cart[i]] == cart;
      }
    }
  }

  /** `updateQuantity` keeps the cart invariant and moves the subtotal by the changed line's difference. */
  lemma UpdateQuantityKeepsInvariant(cart: seq<Line>, products: seq<ProductRow>, id: int, t: ItemType, delta: int)
    requires Invariant(cart)
    ensures Invariant(UpdateQuantity(cart, products, id, t, delta))
    ensures IndexOf(cart, Key(id, t)).Some? ==>
      var i := IndexOf(cart, Key(id, t)).value;
      Subtotal(UpdateQuantity(cart, products, id, t, delta))
        == Subtotal(cart) - cart[i].subtotal + UpdateQuantity(cart, products, id, t, delta)[i].subtotal
  {
    UpdateQuantityEffect(cart, products, id, t, delta);
    if IndexOf(cart, Key(id, t)).Some? {
      var i := IndexOf(cart, Key(id, t)).value;
      var r := UpdateQuantity(cart, products, id, t, delta);
      if r != cart {
        InvariantReplace(cart, i, r[i]);
        SubtotalReplace(cart, i, r[i]);
        assert r == cart[i := r[i]];
      }
    }
  }

  /** A product the catalog knows never ends up above its stock through `updateQuantity`, unless it already was. */
  lemma UpdateQuantityWithinStock(cart: seq<Line>, products: seq<ProductRow>, id: int, delta: int, p: ProductRow)
    requires UniqueKeys(cart) && FindProduct(products, id) == Some(p)
    requires IndexOf(cart, Key(id, Product)).Some?
    ensures var i := IndexOf(cart, Key(id, Product)).value;
      var r := UpdateQuantity(cart, products, id, Product, delta);
      r[i] == cart[i] || r[i].quantity <= p.stock
  {
    UpdateQuantityEffect(cart, products, id, Product, delta);
  }

  /** `removeFromCart(id, type)` */
  function RemoveFromCart(cart: seq<Line>, id: int, t: ItemType): (r: seq<Line>)
    ensures forall j :: 0 <= j < |r| ==> KeyOf(r[j]) != Key(id, t)
  {
    Without(cart, Key(id, t))
  }

  /**
   * On a valid cart, `removeFromCart` drops exactly the matching line, keeps
   * the others in order and the invariant, and lowers the subtotal by the
   * dropped line's subtotal.
   */
  lemma RemoveFromCartEffect(cart: seq<Line>, id: int, t: ItemType)
    requires Invariant(cart)
    ensures Invariant(RemoveFromCart(cart, id, t))
    ensures IndexOf(cart, Key(id, t)).None? ==> RemoveFromCart(cart, id, t) == cart
    ensures IndexOf(cart, Key(id, t)).Some? ==>
      var i := IndexOf(cart, Key(id, t)).value;
      RemoveFromCart(cart, id, t) == cart[..i] + cart[i + 1..]
      && Subtotal(RemoveFromCart(cart, id, t)) == Subtotal(cart) - cart[i].subtotal
  {
    WithoutRemovesOne(cart, Key(id, t));
    InvariantWithout(cart, Key(id, t));
    if IndexOf(cart, Key(id, t)).Some? {
      SubtotalDrop(cart, IndexOf(cart, Key(id, t)).value);
    }
  }

  /** The page state the checkout reads and resets. */
  datatype PosState = PosState(
    cart: seq<Line>, customer: Option<int>, mechanic: Option<int>,
    paymentMethod: string, discount: int, isLoading: bool)

  /** `total = subtotal - discount` */
  function Total(s: PosState): int {
    Subtotal(s.cart) - s.discount
  }

  /** A checkout in flight: the page state with `isLoading` set, and the request sent. */
  datatype Started = Started(state: PosState, request: TransactionRequest)

  lemma ItemObjectsRoundTrip(cart: seq<Line>)
    ensures forall i :: 0 <= i < |cart| ==> ReadLine(ItemObject(cart[i])) == Some(cart[i])
  {
    forall i | 0 <= i < |cart| ensures ReadLine(ItemObject(cart[i])) == Some(cart[i]) {
      ItemObjectRoundTrip(cart[i]);
    }
  }

  /**
   * `handleCheckout`, up to the request: nothing happens on an empty cart or
   * while a checkout is loading; otherwise the request carries every cart line
   * in order, the total and the discount, and the page is marked loading.
   * (The items use the keys the server reads; see `PosItemObjectAsWritten`.)
   */
  function BeginCheckout(s: PosState): (r: Option<Started>)
    ensures r.None? <==> |s.cart| == 0 || s.isLoading
    ensures r.Some? ==>
      && r.value.state == s.(isLoading := true)
      && r.value.request.customerId == s.customer && r.value.request.mechanicId == s.mechanic
      && r.value.request.totalAmount == Subtotal(s.cart) - s.discount
      && r.value.request.discount == s.discount && r.value.request.paymentMethod == s.paymentMethod
      && |r.value.request.items| == |s.cart|
      && forall i :: 0 <= i < |s.cart| ==> ReadLine(r.value.request.items[i]) == Some(s.cart[i])
  {
    if |s.cart| == 0 || s.isLoading then None
    else
      ItemObjectsRoundTrip(s.cart);
      var items := seq(|s.cart|, i requires 0 <= i < |s.cart| => ItemObject(s.cart[i]));
      Some(Started(
        s.(isLoading := true),
        TransactionRequest(s.customer, s.mechanic, items, Total(s), s.discount, s.paymentMethod)))
  }

  /** A second click while the first checkout is loading sends nothing. */
  lemma CheckoutNotRepeated(s: PosState)
    requires BeginCheckout(s).Some?
    ensures BeginCheckout(BeginCheckout(s).value.state).None?
  {
  }

  /**
   * `handleCheckout`, after the response: on success the cart is emptied, the
   * customer and mechanic cleared and the discount reset to 0; on failure only
   * the loading flag is cleared.
   */
  function FinishCheckout(s: PosState, succeeded: bool): (r: PosState)
    ensures !r.isLoading && r.paymentMethod == s.paymentMethod
    ensures succeeded ==> r.cart == [] && r.discount == 0 && r.customer.None? && r.mechanic.None?
    ensures !succeeded ==> r == s.(isLoading := false)
  {
    if succeeded then s.(cart := [], customer := None, mechanic := None, discount := 0, isLoading := false)
    else s.(isLoading := false)
  }

  /** After a successful checkout the page's total is 0 and a new checkout is refused until an item is added. */
  lemma CheckoutResets(s: PosState)
    ensures Total(FinishCheckout(s, true)) == 0
    ensures BeginCheckout(FinishCheckout(s, true)).None?
  {
  }

  /**
   * The item object `handleCheckout` actually builds: the keys `item_type`,
   * `item_id` and `item_name` in place of `type`, `id` and `name`.
   */
  function PosItemObjectAsWritten(l: Line): (r: Object)
    ensures "type" !in r && "id" !in r && "name" !in r
  {
    map[
      "item_type" := JStr(TypeName(l.itemType)),
      "item_id" := JNum(l.id),
      "item_name" := JStr(l.name),
      "quantity" := JNum(l.quantity),
      "price" := JNum(l.price),
      "subtotal" := JNum(l.subtotal)
    ]
  }

  /**
   * The server reads `item.type` and `item.id`, which the page's objects do not
   * carry: a product line sold at the POS leaves every product's stock as it was.
   */
  lemma PosPayloadLosesTypeAndId(l: Line, products: map<int, SaleRecorder.Stock>)
    ensures var item := SaleRecorder.ReadItem(PosItemObjectAsWritten(l));
      item.itemType.None? && item.itemId.None? && !SaleRecorder.IsProductLine(item)
      && SaleRecorder.ApplyDecrements(products, [item]) == products
  {
    var item := SaleRecorder.ReadItem(PosItemObjectAsWritten(l));
    assert [item][..0] == [];
  }

  /**
   * The whole request as the page sends it: read by the server, its items
   * decrement no stock at all, whatever the cart holds.
   */
  lemma {:induction false} PosPayloadDecrementsNothing(cart: seq<Line>, products: map<int, SaleRecorder.Stock>)
    ensures var items := seq(|cart|, i requires 0 <= i < |cart| => SaleRecorder.ReadItem(PosItemObjectAsWritten(cart[i])));
      SaleRecorder.ApplyDecrements(products, items) == products
  {
    var items := seq(|cart|, i requires 0 <= i < |cart| => SaleRecorder.ReadItem(PosItemObjectAsWritten(cart[i])));
    if |cart| > 0 {
      var init := cart[..|cart| - 1];
      assert items[..|items| - 1] == seq(|init|, i requires 0 <= i < |init| => SaleRecorder.ReadItem(PosItemObjectAsWritten(init[i])));
      PosPayloadDecrementsNothing(init, products);
      PosPayloadLosesTypeAndId(cart[|cart| - 1], products);
    }
  }

  /** With the keys the server reads, a product line's quantity comes off that product's stock. */
  lemma CheckoutItemDecrementsStock(l: Line, products: map<int, SaleRecorder.Stock>)
    requires l.itemType == Product && l.id in products
    ensures var item := SaleRecorder.ReadItem(ItemObject(l));
      SaleRecorder.IsProductLine(item) && item.itemId == Some(l.id)
      && l.id in SaleRecorder.ApplyDecrements(products, [item])
      && SaleRecorder.ApplyDecrements(products, [item])[l.id].stock == products[l.id].stock - l.quantity
  {
    SaleRecorder.ReadItemOfItemObject(l);
    var item := SaleRecorder.ReadItem(ItemObject(l));
    assert [item][..0] == [];
  }
}

=== FILE: reports.dfy ===
/**
 * The report arithmetic of the workshop server: the profit/loss report
 * (`GET /api/reports/profit-loss`), the monthly profit chart
 * (`GET /api/dashboard/charts`) and the dashboard's low-stock count. The SQL
 * queries that filter rows by date are not modelled; their SUM results are
 * inputs, `None` standing for the NULL that SUM yields over no rows.
 */
module Reports {
  import opened Wrappers
  import SaleRecorder

  /** `total || 0`: a NULL sum reads as 0. */
  function OrZero(total: Option<int>): int {
    match total
    case None => 0
    case Some(v) => v
  }

  /** The SQL SUM aggregate over a column: NULL (`None`) when there are no rows. */
  function SqlSum(xs: seq<int>): Option<int> {
    if |xs| == 0 then None else Some(Sum(xs))
  }

  function Sum(xs: seq<int>): int {
    if |xs| == 0 then 0 else Sum(xs[..|xs| - 1]) + xs[|xs| - 1]
  }

  datatype ProfitLoss = ProfitLoss(income: int, expense: int, profit: int)

  /** The profit/loss response built from the two SUM results. */
  function ProfitLossReport(incomeTotal: Option<int>, expenseTotal: Option<int>): (r: ProfitLoss)
    ensures r.profit == r.income - r.expense
    ensures incomeTotal.None? ==> r.income == 0
    ensures expenseTotal.None? ==> r.expense == 0
    ensures incomeTotal.Some? ==> r.income == incomeTotal.value
    ensures expenseTotal.Some? ==> r.expense == expenseTotal.value
  {
    ProfitLoss(OrZero(incomeTotal), OrZero(expenseTotal), OrZero(incomeTotal) - OrZero(expenseTotal))
  }

  /**
   * Over the rows themselves, the report is the income sum, the expense sum and
   * their difference: defaulting a NULL sum to 0 is the same as summing no rows.
   */
  lemma ReportOverRows(incomes: seq<int>, expenses: seq<int>)
    ensures ProfitLossReport(SqlSum(incomes), SqlSum(expenses))
      == ProfitLoss(Sum(incomes), Sum(expenses), Sum(incomes) - Sum(expenses))
  {
  }

  const MonthNames: seq<string> := ["Jan", "Feb", "Mar", "Apr", "May", "Jun", "Jul", "Aug", "Sep", "Oct", "Nov", "Dec"]

  datatype ChartPoint = ChartPoint(name: string, profit: int)

  /** `months.map(...)`: one point per month, from that month's income and expense sums. */
  function MonthlyProfit(incomes: seq<Option<int>>, expenses: seq<Option<int>>): (r: seq<ChartPoint>)
    requires |incomes| == |MonthNames| && |expenses| == |MonthNames|
    ensures |r| == 12
    ensures forall m :: 0 <= m < 12 ==> r[m].name == MonthNames[m]
  {
    seq(|MonthNames|, m requires 0 <= m < |MonthNames| => ChartPoint(MonthNames[m], OrZero(incomes[m]) - OrZero(expenses[m])))
  }

  /** Each month's bar is the profit the profit/loss report gives for that month's sums. */
  lemma ChartAgreesWithReport(incomes: seq<Option<int>>, expenses: seq<Option<int>>, m: nat)
    requires |incomes| == |MonthNames| && |expenses| == |MonthNames| && m < 12
    ensures MonthlyProfit(incomes, expenses)[m].profit == ProfitLossReport(incomes[m], expenses[m]).profit
  {
  }

  /** The dashboard's low-stock condition: `stock <= min_stock`. */
  predicate IsLowStock(s: SaleRecorder.Stock) {
    s.stock <= s.minStock
  }

  function LowStockIds(products: map<int, SaleRecorder.Stock>): set<int> {
    set id | id in products && IsLowStock(products[id])
  }

  /** `SELECT COUNT(*) FROM products WHERE stock <= min_stock` */
  function LowStockCount(products: map<int, SaleRecorder.Stock>): (n: nat)
    ensures n <= |products|
  {
    assert LowStockIds(products) <= products.Keys;
    LemmaSubsetCard(LowStockIds(products), products.Keys);
    |LowStockIds(products)|
  }

  lemma LemmaSubsetCard(a: set<int>, b: set<int>)
    requires a <= b
    ensures |a| <= |b|
  {
    assert b == a + (b - a);
    assert a * (b - a) == {};
  }

  /**
   * A sale whose quantities are non-negative never lowers the low-stock count:
   * stock only goes down and min_stock stays.
   */
  lemma LowStockAfterSale(products: map<int, SaleRecorder.Stock>, items: seq<SaleRecorder.SaleItem>)
    requires forall i :: 0 <= i < |items| ==> 0 <= items[i].quantity
    ensures LowStockCount(products) <= LowStockCount(SaleRecorder.ApplyDecrements(products, items))
  {
    var after := SaleRecorder.ApplyDecrements(products, items);
    SaleRecorder.StockAfterSale(products, items);
    forall p | p in LowStockIds(products) ensures p in LowStockIds(after) {
      SoldQuantityNonNegative(items, p);
    }
    LemmaSubsetCard(LowStockIds(products), LowStockIds(after));
  }

  lemma {:induction false} SoldQuantityNonNegative(items: seq<SaleRecorder.SaleItem>, p: int)
    requires forall i :: 0 <= i < |items| ==> 0 <= items[i].quantity
    ensures 0 <= SaleRecorder.SoldQuantity(items, p)
  {
    if |items| > 0 {
      SoldQuantityNonNegative(items[..|items| - 1], p);
    }
  }

  /** The inventory page's "Low Stock" badge: `stock < min_stock`, stricter than the dashboard count. */
  predicate InventoryBadgeLow(s: SaleRecorder.Stock) {
    s.stock < s.minStock
  }

  /** Every badged product is counted; a product exactly at its minimum is counted but not badged. */
  lemma BadgeAndCountDisagreeAtMinimum(s: SaleRecorder.Stock)
    ensures InventoryBadgeLow(s) ==> IsLowStock(s)
    ensures IsLowStock(s) && !InventoryBadgeLow(s) <==> s.stock == s.minStock
  {
  }
}

=== FILE: sale_recorder.dfy ===
/**
 * The sale recorder of the workshop server (`POST /api/transactions`) and the
 * product edit (`PUT /api/products/:id`), over an in-memory picture of the
 * tables they touch: product stock, sale rows, sale line-item rows and the
 * customers' last-service stamps.
 *
 * The store may reject any statement of the sale; the caller names which one
 * through a `Fault`. The model works out two rejections for itself: a clash on
 * the UNIQUE invoice number, and a customer or mechanic that does not exist
 * (the foreign keys of the `transactions` row, which better-sqlite3 enforces
 * by default). A rejected statement rolls the whole sale back.
 */
module SaleRecorder {
  import opened Wrappers
  import opened Wire
  import opened Invoice
  import CartLines

  /** The stock columns of a `products` row. */
  datatype Stock = Stock(stock: int, minStock: int)

  /**
   * One entry of the request's `items`, as the handler reads it: `item.type`,
   * `item.id`, `item.quantity`, `item.price`, `item.subtotal`. A `type` or `id`
   * the client did not send reads as `None`.
   */
  datatype SaleItem = SaleItem(itemType: Option<string>, itemId: Option<int>, quantity: int, price: int, subtotal: int)

  /** A `transactions` row. */
  datatype SaleRow = SaleRow(
    id: int, invoiceNo: string, customerId: Option<int>, mechanicId: Option<int>,
    totalAmount: int, discount: int, paymentMethod: string, createdAt: string)

  /** A `transaction_items` row. */
  datatype LineRow = LineRow(
    id: int, saleId: int, itemType: Option<string>, itemId: Option<int>,
    quantity: int, price: int, subtotal: int)

  /** The response body `{ id, invoice_no }`. */
  datatype Receipt = Receipt(id: int, invoiceNo: string)

  /** The statement of the sale the store rejects, if any. */
  datatype Fault = NoFault | FailSaleInsert | FailItem(index: nat) | FailCustomerUpdate

  datatype SaleError = InvoiceTaken | UnknownReference | StatementFailed

  /**
   * How the handler reads one object of the request's `items` array. An object
   * without `type` or `id` gives a line item with neither, which no stock
   * statement names.
   */
  function ReadItem(obj: Object): (item: SaleItem)
    requires NumField(obj, "quantity").Some? && NumField(obj, "price").Some? && NumField(obj, "subtotal").Some?
    ensures "type" !in obj ==> item.itemType.None? && !IsProductLine(item)
    ensures "id" !in obj ==> item.itemId.None?
  {
    SaleItem(
      StrField(obj, "type"), NumField(obj, "id"),
      NumField(obj, "quantity").value, NumField(obj, "price").value, NumField(obj, "subtotal").value)
  }

  /** The server reads back every field of a cart line sent with the keys it expects. */
  lemma ReadItemOfItemObject(l: CartLines.Line)
    ensures ReadItem(ItemObject(l))
      == SaleItem(Some(CartLines.TypeName(l.itemType)), Some(l.id), l.quantity, l.price, l.subtotal)
  {
  }

  /** `item.type === 'product'` */
  predicate IsProductLine(item: SaleItem) {
    item.itemType == Some("product")
  }

  /** `UPDATE products SET stock = stock - ? WHERE id = ?`: no row changes when the id matches none. */
  function Decrement(products: map<int, Stock>, id: Option<int>, quantity: int): (r: map<int, Stock>)
    ensures r.Keys == products.Keys
    ensures forall p :: p in products && id != Some(p) ==> r[p] == products[p]
  {
    if id.Some? && id.value in products
    then products[id.value := products[id.value].(stock := products[id.value].stock - quantity)]
    else products
  }

  /** The stock statement one item causes: a decrement for a product line, nothing otherwise. */
  function ApplyItem(products: map<int, Stock>, item: SaleItem): map<int, Stock> {
    if IsProductLine(item) then Decrement(products, item.itemId, item.quantity) else products
  }

  /** The product table after the items' stock statements, run in input order. */
  function ApplyDecrements(products: map<int, Stock>, items: seq<SaleItem>): (r: map<int, Stock>)
    ensures r.Keys == products.Keys
  {
    if |items| == 0 then products
    else ApplyItem(ApplyDecrements(products, items[..|items| - 1]), items[|items| - 1])
  }

  /** The quantity of product `p` the items sell: the sum over its product lines. */
  function SoldQuantity(items: seq<SaleItem>, p: int): int {
    if |items| == 0 then 0
    else
      var last := items[|items| - 1];
      SoldQuantity(items[..|items| - 1], p) + (if IsProductLine(last) && last.itemId == Some(p) then last.quantity else 0)
  }

  /**
   * Every product keeps its row and its min_stock, and loses exactly the
   * quantity its product lines sell; repeated lines accumulate, and there is
   * no floor at zero.
   */
  lemma {:induction false} StockAfterSale(products: map<int, Stock>, items: seq<SaleItem>)
    ensures ApplyDecrements(products, items).Keys == products.Keys
    ensures forall p :: p in products ==>
      ApplyDecrements(products, items)[p] == products[p].(stock := products[p].stock - SoldQuantity(items, p))
  {
    if |items| > 0 {
      StockAfterSale(products, items[..|items| - 1]);
    }
  }

  /** A product that no product line names keeps its stock: service lines never touch stock. */
  lemma {:induction false} SoldQuantityUnnamed(items: seq<SaleItem>, p: int)
    requires forall i :: 0 <= i < |items| ==> !(IsProductLine(items[i]) && items[i].itemId == Some(p))
    ensures SoldQuantity(items, p) == 0
  {
    if |items| > 0 {
      SoldQuantityUnnamed(items[..|items| - 1], p);
    }
  }

  lemma {:induction false} SoldQuantityAppend(a: seq<SaleItem>, b: seq<SaleItem>, p: int)
    ensures SoldQuantity(a + b, p) == SoldQuantity(a, p) + SoldQuantity(b, p)
  {
    if |b| == 0 {
      assert a + b == a;
    } else {
      assert (a + b)[..|a + b| - 1] == a + b[..|b| - 1];
      SoldQuantityAppend(a, b[..|b| - 1], p);
    }
  }

  /** Running two batches of stock statements is running their concatenation. */
  lemma {:induction false} ApplyDecrementsAppend(products: map<int, Stock>, a: seq<SaleItem>, b: seq<SaleItem>)
    ensures ApplyDecrements(ApplyDecrements(products, a), b) == ApplyDecrements(products, a + b)
  {
    if |b| == 0 {
      assert a + b == a;
    } else {
      assert (a + b)[..|a + b| - 1] == a + b[..|b| - 1];
      ApplyDecrementsAppend(products, a, b[..|b| - 1]);
    }
  }

  /** Recording the same items twice takes their quantity off the stock twice: the sale is not idempotent. */
  lemma SellingTwiceDecrementsTwice(products: map<int, Stock>, items: seq<SaleItem>, p: int)
    requires p in products
    ensures p in ApplyDecrements(ApplyDecrements(products, items), items)
    ensures ApplyDecrements(ApplyDecrements(products, items), items)[p].stock
      == products[p].stock - 2 * SoldQuantity(items, p)
  {
    ApplyDecrementsAppend(products, items, items);
    StockAfterSale(products, items + items);
    SoldQuantityAppend(items, items, p);
  }

  /** Selling three of a product that has one in stock leaves its stock at -2. */
  lemma NoStockFloor()
    ensures ApplyDecrements(map[1 := Stock(1, 0)], [SaleItem(Some("product"), Some(1), 3, 10, 30)])[1].stock == -2
  {
    StockAfterSale(map[1 := Stock(1, 0)], [SaleItem(Some("product"), Some(1), 3, 10, 30)]);
  }

  /** `if (customer_id)`: a customer id is acted on only when present and non-zero. */
  predicate Truthy(id: Option<int>) {
    id.Some? && id.value != 0
  }

  /** `UPDATE customers SET last_service = CURRENT_TIMESTAMP WHERE id = ?`, run only for a truthy id. */
  function TouchCustomer(customers: map<int, Option<string>>, customerId: Option<int>, now: string): (r: map<int, Option<string>>)
    ensures r.Keys == customers.Keys
    ensures forall c :: c in customers ==>
      r[c] == if Truthy(customerId) && c == customerId.value then Some(now) else customers[c]
  {
    if Truthy(customerId) && customerId.value in customers
    then customers[customerId.value := Some(now)]
    else customers
  }

  /** The line-item row inserted for one item. */
  function LineRowOf(saleId: int, lineId: int, item: SaleItem): LineRow {
    LineRow(lineId, saleId, item.itemType, item.itemId, item.quantity, item.price, item.subtotal)
  }

  /** The line-item rows of one sale, one per item in input order, with consecutive row ids. */
  function LineRows(saleId: int, firstLineId: int, items: seq<SaleItem>): seq<LineRow> {
    seq(|items|, i requires 0 <= i < |items| => LineRowOf(saleId, firstLineId + i, items[i]))
  }

  predicate InvoiceInUse(sales: seq<SaleRow>, invoiceNo: string) {
    exists i :: 0 <= i < |sales| && sales[i].invoiceNo == invoiceNo
  }

  ghost predicate SaleExists(sales: seq<SaleRow>, id: int) {
    exists i :: 0 <= i < |sales| && sales[i].id == id
  }

  /** A foreign-key column holds NULL or the id of an existing row. */
  predicate KnownReference(id: Option<int>, known: set<int>) {
    id.None? || id.value in known
  }

  /**
   * Why a sale with these inputs is rejected, if it is: a clash on the invoice
   * number, a customer or mechanic that does not exist, or a statement the
   * store rejects.
   */
  function SaleFailure(
    sales: seq<SaleRow>, customers: set<int>, mechanics: set<int>,
    customerId: Option<int>, mechanicId: Option<int>, items: seq<SaleItem>, clockMs: nat, fault: Fault): Option<SaleError>
  {
    if InvoiceInUse(sales, InvoiceNumber(clockMs)) then Some(InvoiceTaken)
    else if !KnownReference(customerId, customers) || !KnownReference(mechanicId, mechanics) then Some(UnknownReference)
    else if fault == FailSaleInsert
         || (fault.FailItem? && fault.index < |items|)
         || (fault == FailCustomerUpdate && Truthy(customerId))
    then Some(StatementFailed)
    else None
  }

  /** Two sales stamped in the same millisecond collide: the second is rejected. */
  lemma SameMillisecondCollides(
    sales: seq<SaleRow>, customers: set<int>, mechanics: set<int>,
    customerId: Option<int>, mechanicId: Option<int>, items: seq<SaleItem>, clockMs: nat, fault: Fault)
    requires 0 < |sales| && sales[|sales| - 1].invoiceNo == InvoiceNumber(clockMs)
    ensures SaleFailure(sales, customers, mechanics, customerId, mechanicId, items, clockMs, fault) == Some(InvoiceTaken)
  {
    assert sales[|sales| - 1].invoiceNo == InvoiceNumber(clockMs);
  }

  /**
   * A fresh sale naming a customer (an id of 0 included) or a mechanic that
   * does not exist is rejected whatever else holds; one with no customer and
   * no mechanic never is for that reason.
   */
  lemma UnknownReferenceRejected(
    sales: seq<SaleRow>, customers: set<int>, mechanics: set<int>,
    customerId: Option<int>, mechanicId: Option<int>, items: seq<SaleItem>, clockMs: nat, fault: Fault)
    requires !InvoiceInUse(sales, InvoiceNumber(clockMs))
    ensures (customerId.Some? && customerId.value !in customers) || (mechanicId.Some? && mechanicId.value !in mechanics)
      <==> SaleFailure(sales, customers, mechanics, customerId, mechanicId, items, clockMs, fault) == Some(UnknownReference)
    ensures customerId.None? && mechanicId.None? ==>
      SaleFailure(sales, customers, mechanics, customerId, mechanicId, items, clockMs, fault) != Some(UnknownReference)
  {
  }

  /** Sale ids are below the next id and increase in insertion order; invoice numbers are unique. */
  ghost predicate SalesValid(sales: seq<SaleRow>, nextSaleId: int) {
    && (forall i :: 0 <= i < |sales| ==> sales[i].id < nextSaleId)
    && (forall i, j :: 0 <= i < j < |sales| ==> sales[i].id < sales[j].id)
    && (forall i, j :: 0 <= i < j < |sales| ==> sales[i].invoiceNo != sales[j].invoiceNo)
  }

  /** Line-item ids are below the next id and increase in insertion order. */
  ghost predicate LinesValid(lines: seq<LineRow>, nextLineId: int) {
    && (forall i :: 0 <= i < |lines| ==> lines[i].id < nextLineId)
    && (forall i, j :: 0 <= i < j < |lines| ==> lines[i].id < lines[j].id)
  }

  /** Every line item belongs to a recorded sale. */
  ghost predicate LinesAttached(sales: seq<SaleRow>, lines: seq<LineRow>) {
    forall i :: 0 <= i < |lines| ==> SaleExists(sales, lines[i].saleId)
  }

  /** Every sale names an existing customer and mechanic, or none: the foreign keys hold. */
  ghost predicate ReferencesKnown(sales: seq<SaleRow>, customers: set<int>, mechanics: set<int>) {
    forall i :: 0 <= i < |sales| ==>
      KnownReference(sales[i].customerId, customers) && KnownReference(sales[i].mechanicId, mechanics)
  }

  /** A new sale whose references exist keeps every sale's references valid. */
  lemma CommitKeepsReferencesKnown(sales: seq<SaleRow>, customers: set<int>, mechanics: set<int>, row: SaleRow)
    requires ReferencesKnown(sales, customers, mechanics)
    requires KnownReference(row.customerId, customers) && KnownReference(row.mechanicId, mechanics)
    ensures ReferencesKnown(sales + [row], customers, mechanics)
  {
    var sales' := sales + [row];
    forall i | 0 <= i < |sales'|
      ensures KnownReference(sales'[i].customerId, customers) && KnownReference(sales'[i].mechanicId, mechanics)
    {
      if i < |sales| {
        assert sales'[i] == sales[i];
      }
    }
  }

  ghost predicate TablesValid(sales: seq<SaleRow>, lines: seq<LineRow>, nextSaleId: int, nextLineId: int) {
    SalesValid(sales, nextSaleId) && LinesValid(lines, nextLineId) && LinesAttached(sales, lines)
  }

  /** The new sale row takes the next id and an unused invoice number. */
  lemma CommitKeepsSalesValid(sales: seq<SaleRow>, nextSaleId: int, row: SaleRow)
    requires SalesValid(sales, nextSaleId)
    requires row.id == nextSaleId && !InvoiceInUse(sales, row.invoiceNo)
    ensures SalesValid(sales + [row], nextSaleId + 1)
  {
    var sales' := sales + [row];
    forall i, j | 0 <= i < j < |sales'| ensures sales'[i].invoiceNo != sales'[j].invoiceNo {
      if j == |sales| {
        assert sales'[i] == sales[i];
      }
    }
  }

  /** The new line rows take consecutive ids from the next one. */
  lemma CommitKeepsLinesValid(lines: seq<LineRow>, nextLineId: int, saleId: int, items: seq<SaleItem>)
    requires LinesValid(lines, nextLineId)
    ensures LinesValid(lines + LineRows(saleId, nextLineId, items), nextLineId + |items|)
  {
  }

  /** The new line rows name the new sale. */
  lemma CommitKeepsLinesAttached(sales: seq<SaleRow>, lines: seq<LineRow>, row: SaleRow, firstLineId: int, items: seq<SaleItem>)
    requires LinesAttached(sales, lines)
    ensures LinesAttached(sales + [row], lines + LineRows(row.id, firstLineId, items))
  {
    var sales', lines' := sales + [row], lines + LineRows(row.id, firstLineId, items);
    forall i | 0 <= i < |lines'| ensures SaleExists(sales', lines'[i].saleId) {
      if i < |lines| {
        var j :| 0 <= j < |sales| && sales[j].id == lines[i].saleId;
        assert sales'[j] == sales[j];
      } else {
        assert sales'[|sales|] == row;
      }
    }
  }

  /** Committing a sale with a fresh invoice number and its line items keeps the tables valid. */
  lemma CommitKeepsTablesValid(
    sales: seq<SaleRow>, lines: seq<LineRow>, nextSaleId: int, nextLineId: int,
    row: SaleRow, items: seq<SaleItem>)
    requires TablesValid(sales, lines, nextSaleId, nextLineId)
    requires row.id == nextSaleId && !InvoiceInUse(sales, row.invoiceNo)
    ensures TablesValid(sales + [row], lines + LineRows(nextSaleId, nextLineId, items), nextSaleId + 1, nextLineId + |items|)
  {
    CommitKeepsSalesValid(sales, nextSaleId, row);
    CommitKeepsLinesValid(lines, nextLineId, nextSaleId, items);
    CommitKeepsLinesAttached(sales, lines, row, nextLineId, items);
  }

  /** One more item of the loop: one more line-item row, and that item's stock statement. */
  lemma SaleStep(products: map<int, Stock>, saleId: int, firstLineId: int, items: seq<SaleItem>, k: nat)
    requires k < |items|
    ensures LineRows(saleId, firstLineId, items[..k + 1])
      == LineRows(saleId, firstLineId, items[..k]) + [LineRowOf(saleId, firstLineId + k, items[k])]
    ensures ApplyDecrements(products, items[..k + 1]) == ApplyItem(ApplyDecrements(products, items[..k]), items[k])
  {
    assert items[..k + 1][..k] == items[..k];
  }

  class SaleStore {
    var products: map<int, Stock>
    var sales: seq<SaleRow>
    var lines: seq<LineRow>
    var customers: map<int, Option<string>>
    /** The ids of the `mechanics` rows; the sale recorder never changes them. */
    var mechanics: set<int>
    /** The next row id AUTOINCREMENT hands out for `transactions` and for `transaction_items`. */
    var nextSaleId: int
    var nextLineId: int

    /**
     * Row ids are below the next id and increase in insertion order, invoice
     * numbers are unique, every line item belongs to a recorded sale, and
     * every sale names an existing customer and mechanic or none.
     */
    ghost predicate Valid()
      reads this
    {
      TablesValid(sales, lines, nextSaleId, nextLineId) && ReferencesKnown(sales, customers.Keys, mechanics)
    }

    constructor (products: map<int, Stock>, customers: map<int, Option<string>>, mechanics: set<int>)
      ensures Valid()
      ensures this.products == products && this.customers == customers && this.mechanics == mechanics
      ensures sales == [] && lines == [] && nextSaleId == 1 && nextLineId == 1
    {
      this.products := products;
      this.customers := customers;
      this.mechanics := mechanics;
      sales := [];
      lines := [];
      nextSaleId := 1;
      nextLineId := 1;
    }

    /**
     * `POST /api/transactions`: insert the sale, then per item its line-item row
     * and (for a product line) the stock decrement, then stamp the customer,
     * all inside one transaction. `clockMs` is `Date.now()` and `now` is
     * `CURRENT_TIMESTAMP`.
     */
    method RecordSale(
      customerId: Option<int>, mechanicId: Option<int>, items: seq<SaleItem>,
      totalAmount: int, discount: int, paymentMethod: string,
      clockMs: nat, now: string, fault: Fault)
      returns (r: Result<Receipt, SaleError>)
      requires Valid()
      modifies this`products, this`sales, this`lines, this`customers, this`nextSaleId, this`nextLineId
      ensures Valid()
      ensures r.Failure? <==>
        SaleFailure(old(sales), old(customers).Keys, mechanics, customerId, mechanicId, items, clockMs, fault).Some?
      ensures r.Failure? ==>
        r.error == SaleFailure(old(sales), old(customers).Keys, mechanics, customerId, mechanicId, items, clockMs, fault).value
      ensures r.Failure? ==>
        && products == old(products) && sales == old(sales) && lines == old(lines)
        && customers == old(customers) && nextSaleId == old(nextSaleId) && nextLineId == old(nextLineId)
      ensures r.Success? ==>
        && r.value == Receipt(old(nextSaleId), InvoiceNumber(clockMs))
        && sales == old(sales) + [SaleRow(old(nextSaleId), InvoiceNumber(clockMs), customerId, mechanicId,
                                          totalAmount, discount, paymentMethod, now)]
        && lines == old(lines) + LineRows(old(nextSaleId), old(nextLineId), items)
        && products == ApplyDecrements(old(products), items)
        && customers == TouchCustomer(old(customers), customerId, now)
        && nextSaleId == old(nextSaleId) + 1
        && nextLineId == old(nextLineId) + |items|
    {
      var invoiceNo := InvoiceNumber(clockMs);
      if InvoiceInUse(sales, invoiceNo) {
        return Failure(InvoiceTaken);
      }
      if !KnownReference(customerId, customers.Keys) || !KnownReference(mechanicId, mechanics) {
        return Failure(UnknownReference);
      }
      if fault == FailSaleInsert {
        return Failure(StatementFailed);
      }
      var saleId := nextSaleId;
      var customers0 := customers;
      var committed := SaleTransaction(invoiceNo, customerId, mechanicId, items, totalAmount, discount, paymentMethod, now, fault);
      if !committed {
        return Failure(StatementFailed);
      }
      var row := SaleRow(saleId, invoiceNo, customerId, mechanicId, totalAmount, discount, paymentMethod, now);
      assert SaleFailure(old(sales), customers0.Keys, mechanics, customerId, mechanicId, items, clockMs, fault).None?;
      assert TablesValid(sales, lines, nextSaleId, nextLineId) && ReferencesKnown(sales, customers.Keys, mechanics) by {
        CommitKeepsTablesValid(old(sales), old(lines), old(nextSaleId), old(nextLineId), row, items);
        CommitKeepsReferencesKnown(old(sales), customers0.Keys, mechanics, row);
      }
      r := Success(Receipt(saleId, invoiceNo));
    }

    /**
     * `db.transaction(...)`: run the sale's statements and commit them, or,
     * when one is rejected, roll every table back to its state before the sale.
     */
    method SaleTransaction(
      invoiceNo: string, customerId: Option<int>, mechanicId: Option<int>, items: seq<SaleItem>,
      totalAmount: int, discount: int, paymentMethod: string, now: string, fault: Fault)
      returns (committed: bool)
      modifies this`products, this`sales, this`lines, this`customers, this`nextSaleId, this`nextLineId
      ensures committed <==> !((fault.FailItem? && fault.index < |items|) || (fault == FailCustomerUpdate && Truthy(customerId)))
      ensures !committed ==>
        && products == old(products) && sales == old(sales) && lines == old(lines)
        && customers == old(customers) && nextSaleId == old(nextSaleId) && nextLineId == old(nextLineId)
      ensures committed ==>
        && sales == old(sales) + [SaleRow(old(nextSaleId), invoiceNo, customerId, mechanicId,
                                          totalAmount, discount, paymentMethod, now)]
        && lines == old(lines) + LineRows(old(nextSaleId), old(nextLineId), items)
        && products == ApplyDecrements(old(products), items)
        && customers == TouchCustomer(old(customers), customerId, now)
        && nextSaleId == old(nextSaleId) + 1
        && nextLineId == old(nextLineId) + |items|
    {
      // what a rollback restores
      var products0, sales0, lines0, nextSale0, nextLine0, customers0 := products, sales, lines, nextSaleId, nextLineId, customers;
      var failed := InsertSale(invoiceNo, customerId, mechanicId, items, totalAmount, discount, paymentMethod, now, fault);
      if failed {
        products, sales, lines, nextSaleId, nextLineId, customers := products0, sales0, lines0, nextSale0, nextLine0, customers0;
      }
      committed := !failed;
    }

    /**
     * The statements of the sale, in order: the sale row, the items, the
     * customer stamp. A rejected statement stops the run and leaves what was
     * done so far for the caller to roll back.
     */
    method InsertSale(
      invoiceNo: string, customerId: Option<int>, mechanicId: Option<int>, items: seq<SaleItem>,
      totalAmount: int, discount: int, paymentMethod: string, now: string, fault: Fault)
      returns (failed: bool)
      modifies this`products, this`sales, this`lines, this`customers, this`nextSaleId, this`nextLineId
      ensures failed <==> (fault.FailItem? && fault.index < |items|) || (fault == FailCustomerUpdate && Truthy(customerId))
      ensures !failed ==>
        && sales == old(sales) + [SaleRow(old(nextSaleId), invoiceNo, customerId, mechanicId,
                                          totalAmount, discount, paymentMethod, now)]
        && lines == old(lines) + LineRows(old(nextSaleId), old(nextLineId), items)
        && products == ApplyDecrements(old(products), items)
        && customers == TouchCustomer(old(customers), customerId, now)
        && nextSaleId == old(nextSaleId) + 1
        && nextLineId == old(nextLineId) + |items|
    {
      var saleId := nextSaleId;
      sales := sales + [SaleRow(saleId, invoiceNo, customerId, mechanicId, totalAmount, discount, paymentMethod, now)];
      nextSaleId := nextSaleId + 1;
      failed := InsertItems(saleId, items, fault);
      if failed {
        return;
      }
      if Truthy(customerId) {
        if fault == FailCustomerUpdate {
          return true;
        }
        customers := TouchCustomer(customers, customerId, now);
      }
    }

    /**
     * The per-item part of the sale: for each item in order, its line-item row,
     * then the stock decrement of a product line. The item the store rejects
     * stops the loop, leaving the rows so far for the caller to roll back.
     */
    method InsertItems(saleId: int, items: seq<SaleItem>, fault: Fault) returns (failed: bool)
      modifies this`lines, this`nextLineId, this`products
      ensures failed <==> fault.FailItem? && fault.index < |items|
      ensures !failed ==>
        && lines == old(lines) + LineRows(saleId, old(nextLineId), items)
        && nextLineId == old(nextLineId) + |items|
        && products == ApplyDecrements(old(products), items)
    {
      var k := 0;
      while k < |items|
        invariant 0 <= k <= |items|
        invariant fault.FailItem? ==> k <= fault.index
        invariant lines == old(lines) + LineRows(saleId, old(nextLineId), items[..k])
        invariant nextLineId == old(nextLineId) + k
        invariant products == ApplyDecrements(old(products), items[..k])
      {
        if fault == FailItem(k) {
          return true;
        }
        lines := lines + [LineRowOf(saleId, nextLineId, items[k])];
        nextLineId := nextLineId + 1;
        if IsProductLine(items[k]) {
          products := Decrement(products, items[k].itemId, items[k].quantity);
        }
        SaleStep(old(products), saleId, old(nextLineId), items, k);
        k := k + 1;
      }
      assert items[..k] == items;
      return false;
    }

    /**
     * `PUT /api/products/:id`: overwrite the product's stock and min_stock with
     * the given values; no row changes when the id matches none. The same
     * statement writes `code` (UNIQUE) and `category_id` (a foreign key), which
     * this store does not hold: `rejected` says whether SQLite refused the
     * statement for them, and then the row keeps its old values and the
     * request fails (a 500).
     */
    method UpdateProduct(id: int, stock: int, minStock: int, rejected: bool) returns (ok: bool)
      requires Valid()
      modifies this`products
      ensures Valid()
      ensures ok <==> !rejected
      ensures !ok ==> products == old(products)
      ensures ok ==> products == if id in old(products) then old(products)[id := Stock(stock, minStock)] else old(products)
    {
      if rejected {
        return false;
      }
      if id in products {
        products := products[id := Stock(stock, minStock)];
      }
      return true;
    }
  }

  /**
   * The end-to-end sale: product 1 starts at stock 10, customer 7 buys two of
   * it; the stock drops to 8, the customer is stamped and the receipt matches
   * the stored sale.
   */
  method SaleScenario() {
    var store := new SaleStore(map[1 := Stock(10, 2)], map[7 := None], {3});
    var items := [SaleItem(Some("product"), Some(1), 2, 50000, 100000)];
    var r := store.RecordSale(Some(7), None, items, 100000, 0, "Cash", 1000, "2024-01-01 10:00:00", NoFault);
    assert !InvoiceInUse([], InvoiceNumber(1000));
    assert r.Success?;
    assert store.products[1].stock == 8 by {
      StockAfterSale(map[1 := Stock(10, 2)], items);
      assert SoldQuantity(items, 1) == 2;
    }
    assert store.customers[7] == Some("2024-01-01 10:00:00");
    assert |store.sales| == 1 && store.sales[0].invoiceNo == r.value.invoiceNo && store.sales[0].id == r.value.id;
    assert |store.lines| == 1 && store.lines[0].saleId == r.value.id;
  }

  /** A second request in the same millisecond is refused and changes nothing. */
  method RepeatedSaleScenario() {
    var store := new SaleStore(map[1 := Stock(10, 2)], map[7 := None], {3});
    var items := [SaleItem(Some("product"), Some(1), 2, 50000, 100000)];
    var r := store.RecordSale(Some(7), None, items, 100000, 0, "Cash", 1000, "2024-01-01 10:00:00", NoFault);
    assert !InvoiceInUse([], InvoiceNumber(1000));
    assert r.Success?;
    var products, sales := store.products, store.sales;
    assert sales[|sales| - 1].invoiceNo == InvoiceNumber(1000);
    var again := store.RecordSale(Some(7), None, items, 100000, 0, "Cash", 1000, "2024-01-01 10:00:00", NoFault);
    assert again == Failure(InvoiceTaken) by {
      SameMillisecondCollides(sales, {7}, {3}, Some(7), None, items, 1000, NoFault);
    }
    assert store.products == products && store.sales == sales;
  }

  /** A request a millisecond later gets its own invoice number and takes two more off the stock. */
  method LaterSaleScenario() {
    var store := new SaleStore(map[1 := Stock(10, 2)], map[7 := None], {3});
    var items := [SaleItem(Some("product"), Some(1), 2, 50000, 100000)];
    var r := store.RecordSale(Some(7), None, items, 100000, 0, "Cash", 1000, "2024-01-01 10:00:00", NoFault);
    assert !InvoiceInUse([], InvoiceNumber(1000));
    assert r.Success?;
    var products := store.products;
    assert products[1].stock == 8 by {
      StockAfterSale(map[1 := Stock(10, 2)], items);
      assert SoldQuantity(items, 1) == 2;
    }
    InvoiceInjective(1000, 1001);
    assert !InvoiceInUse(store.sales, InvoiceNumber(1001));
    var later := store.RecordSale(Some(7), None, items, 100000, 0, "Cash", 1001, "2024-01-01 10:00:01", NoFault);
    assert later.Success?;
    assert store.products[1].stock == 6 by {
      StockAfterSale(products, items);
      assert SoldQuantity(items, 1) == 2;
    }
  }

  /** A sale naming customer 99, who does not exist, is rejected and changes nothing. */
  method UnknownCustomerScenario() {
    var store := new SaleStore(map[1 := Stock(10, 2)], map[7 := None], {3});
    var items := [SaleItem(Some("product"), Some(1), 2, 50000, 100000)];
    var r := store.RecordSale(Some(99), Some(3), items, 100000, 0, "Cash", 1000, "2024-01-01 10:00:00", NoFault);
    assert !InvoiceInUse([], InvoiceNumber(1000));
    assert r == Failure(UnknownReference);
    assert store.products[1].stock == 10 && store.sales == [] && store.lines == [];
  }
}

=== FILE: transaction_modal.dfy ===
/**
 * The new-transaction modal of the transactions page: its item list handlers
 * (`addItem`, `updateQuantity`, `removeItem`), subtotal and total, the submit
 * guard and request, and the item picker's search (`filteredItems`). Unlike
 * the point-of-sale page it sets quantities absolutely and never caps them at
 * the stock.
 */
module TransactionModal {
  import opened Wrappers
  import opened CartLines
  import opened Wire
  import Pos

  /** `updateQuantity(id, type, qty)`: nothing below 1; otherwise the matching line gets `qty` and its subtotal. */
  function UpdateQuantity(cart: seq<Line>, id: int, t: ItemType, qty: int): (r: seq<Line>)
    ensures qty < 1 ==> r == cart
    ensures |r| == |cart|
    ensures forall j :: 0 <= j < |cart| && KeyOf(cart[j]) != Key(id, t) ==> r[j] == cart[j]
    ensures forall j :: 0 <= j < |cart| && KeyOf(cart[j]) == Key(id, t) && 1 <= qty ==>
      r[j].quantity == qty && r[j].subtotal == cart[j].price * qty && KeyOf(r[j]) == Key(id, t)
  {
    if qty < 1 then cart
    else MapKey(cart, Key(id, t), (l: Line) => l.(quantity := qty, subtotal := l.price * qty))
  }

  /** On a cart with unique keys, `updateQuantity` changes the matching line alone, or nothing. */
  lemma UpdateQuantityUpdatesOne(cart: seq<Line>, id: int, t: ItemType, qty: int)
    requires UniqueKeys(cart)
    ensures IndexOf(cart, Key(id, t)).None? || qty < 1 ==> UpdateQuantity(cart, id, t, qty) == cart
    ensures IndexOf(cart, Key(id, t)).Some? && 1 <= qty ==>
      var i := IndexOf(cart, Key(id, t)).value;
      UpdateQuantity(cart, id, t, qty) == cart[i := cart[i].(quantity := qty, subtotal := cart[i].price * qty)]
  {
    var r := UpdateQuantity(cart, id, t, qty);
    if IndexOf(cart, Key(id, t)).None? || qty < 1 {
      assert forall j :: 0 <= j < |cart| ==> r[j] == cart[j];
    } else {
      var i := IndexOf(cart, Key(id, t)).value;
      var expected := cart[i := cart[i].(quantity := qty, subtotal := cart[i].price * qty)];
      forall j | 0 <= j < |cart| ensures r[j] == expected[j] {
        if j != i {
          KeysDiffer(cart, i, j);
        }
      }
    }
  }

  /** On a valid cart, `updateQuantity` keeps the invariant and replaces the matching line's subtotal by `price * qty`. */
  lemma UpdateQuantityKeepsInvariant(cart: seq<Line>, id: int, t: ItemType, qty: int)
    requires Invariant(cart)
    ensures Invariant(UpdateQuantity(cart, id, t, qty))
    ensures IndexOf(cart, Key(id, t)).Some? && 1 <= qty ==>
      var i := IndexOf(cart, Key(id, t)).value;
      Subtotal(UpdateQuantity(cart, id, t, qty)) == Subtotal(cart) - cart[i].subtotal + cart[i].price * qty
  {
    UpdateQuantityUpdatesOne(cart, id, t, qty);
    if IndexOf(cart, Key(id, t)).Some? && 1 <= qty {
      var i := IndexOf(cart, Key(id, t)).value;
      var l := cart[i].(quantity := qty, subtotal := cart[i].price * qty);
      InvariantReplace(cart, i, l);
      SubtotalReplace(cart, i, l);
    }
  }

  /** `addItem`: an existing (id, type) gets one more unit through `updateQuantity`; a new one is appended with quantity 1. */
  function AddItem(cart: seq<Line>, item: Item): (r: seq<Line>)
    ensures IndexOf(cart, ItemKey(item)).None? ==>
      |r| == |cart| + 1 && r[..|cart|] == cart
      && r[|cart|] == Line(item.id, item.Type(), item.name, item.UnitPrice(), 1, item.UnitPrice())
    ensures |r| <= |cart| + 1
  {
    match IndexOf(cart, ItemKey(item))
    case Some(i) => UpdateQuantity(cart, item.id, item.Type(), cart[i].quantity + 1)
    case None => cart + [NewLine(item)]
  }

  /** On a valid cart, adding an item already listed raises that line alone by one unit, whatever the stock. */
  lemma AddItemBumpsOne(cart: seq<Line>, item: Item)
    requires UniqueKeys(cart) && IndexOf(cart, ItemKey(item)).Some?
    requires 0 <= cart[IndexOf(cart, ItemKey(item)).value].quantity
    ensures var i := IndexOf(cart, ItemKey(item)).value;
      AddItem(cart, item) == cart[i := cart[i].(quantity := cart[i].quantity + 1,
                                                 subtotal := cart[i].price * (cart[i].quantity + 1))]
  {
    var k := ItemKey(item);
    assert k == Key(item.id, item.Type());
    var i := IndexOf(cart, k).value;
    var q := cart[i].quantity + 1;
    assert AddItem(cart, item) == UpdateQuantity(cart, item.id, item.Type(), q);
    UpdateQuantityUpdatesOne(cart, item.id, item.Type(), q);
  }

  /**
   * On a valid cart, `addItem` keeps the invariant and adds exactly one unit
   * price to the subtotal, whatever the stock: the item's price for a new line,
   * the line's own price for an existing one.
   */
  lemma AddItemKeepsInvariant(cart: seq<Line>, item: Item)
    requires Invariant(cart)
    ensures Invariant(AddItem(cart, item))
    ensures IndexOf(cart, ItemKey(item)).None? ==>
      Subtotal(AddItem(cart, item)) == Subtotal(cart) + item.UnitPrice()
    ensures IndexOf(cart, ItemKey(item)).Some? ==>
      Subtotal(AddItem(cart, item)) == Subtotal(cart) + cart[IndexOf(cart, ItemKey(item)).value].price
  {
    if IndexOf(cart, ItemKey(item)).None? {
      AddNewItemKeepsInvariant(cart, item);
    } else {
      AddListedItemKeepsInvariant(cart, item);
    }
  }

  lemma AddNewItemKeepsInvariant(cart: seq<Line>, item: Item)
    requires Invariant(cart) && IndexOf(cart, ItemKey(item)).None?
    ensures Invariant(AddItem(cart, item)) && Subtotal(AddItem(cart, item)) == Subtotal(cart) + item.UnitPrice()
  {
    assert AddItem(cart, item) == cart + [NewLine(item)];
    NewLineKeepsInvariant(cart, item);
  }

  lemma AddListedItemKeepsInvariant(cart: seq<Line>, item: Item)
    requires Invariant(cart) && IndexOf(cart, ItemKey(item)).Some?
    ensures Invariant(AddItem(cart, item))
    ensures Subtotal(AddItem(cart, item)) == Subtotal(cart) + cart[IndexOf(cart, ItemKey(item)).value].price
  {
    var i := IndexOf(cart, ItemKey(item)).value;
    var l := cart[i].(quantity := cart[i].quantity + 1, subtotal := cart[i].price * (cart[i].quantity + 1));
    assert AddItem(cart, item) == cart[i := l] by {
      assert Priced(cart[i]);
      AddItemBumpsOne(cart, item);
    }
    assert Invariant(cart[i := l]) && Subtotal(cart[i := l]) == Subtotal(cart) + cart[i].price by {
      OneMoreUnitKeepsInvariant(cart, i);
    }
  }

  /**
   * The modal and the point-of-sale page add an item the same way, except that
   * the modal also adds to a product line already at the item's stock.
   */
  lemma AddItemAgreesWithPos(cart: seq<Line>, item: Item)
    requires Invariant(cart)
    ensures IndexOf(cart, ItemKey(item)).None? || !Pos.AtStockCap(cart[IndexOf(cart, ItemKey(item)).value], item)
      ==> AddItem(cart, item) == Pos.AddToCart(cart, item)
    ensures IndexOf(cart, ItemKey(item)).Some? && Pos.AtStockCap(cart[IndexOf(cart, ItemKey(item)).value], item)
      ==> AddItem(cart, item) != Pos.AddToCart(cart, item)
  {
    var found := IndexOf(cart, ItemKey(item));
    if found.None? {
      assert AddItem(cart, item) == cart + [NewLine(item)];
      assert Pos.AddToCart(cart, item) == cart + [NewLine(item)];
    } else {
      var i := found.value;
      var bumped := cart[i].(quantity := cart[i].quantity + 1, subtotal := cart[i].price * (cart[i].quantity + 1));
      assert AddItem(cart, item) == cart[i := bumped] by {
        assert Priced(cart[i]);
        AddItemBumpsOne(cart, item);
      }
      if !Pos.AtStockCap(cart[i], item) {
        assert Pos.AddToCart(cart, item) == cart[i := bumped] by {
          Pos.AddToCartBumpsOne(cart, item);
          assert Pos.Bumped(cart[i]) == bumped;
        }
      } else {
        assert Pos.AddToCart(cart, item) == cart;
        assert cart[i := bumped][i] != cart[i];
      }
    }
  }

  /** `removeItem(id, type)` */
  function RemoveItem(cart: seq<Line>, id: int, t: ItemType): (r: seq<Line>)
    ensures |r| <= |cart|
    ensures forall j :: 0 <= j < |r| ==> KeyOf(r[j]) != Key(id, t)
  {
    Without(cart, Key(id, t))
  }

  /** On a valid cart, `removeItem` drops exactly the matching line and its subtotal, keeping the others in order. */
  lemma RemoveItemEffect(cart: seq<Line>, id: int, t: ItemType)
    requires Invariant(cart)
    ensures Invariant(RemoveItem(cart, id, t))
    ensures IndexOf(cart, Key(id, t)).None? ==> RemoveItem(cart, id, t) == cart
    ensures IndexOf(cart, Key(id, t)).Some? ==>
      var i := IndexOf(cart, Key(id, t)).value;
      RemoveItem(cart, id, t) == cart[..i] + cart[i + 1..]
      && Subtotal(RemoveItem(cart, id, t)) == Subtotal(cart) - cart[i].subtotal
  {
    WithoutRemovesOne(cart, Key(id, t));
    InvariantWithout(cart, Key(id, t));
    if IndexOf(cart, Key(id, t)).Some? {
      SubtotalDrop(cart, IndexOf(cart, Key(id, t)).value);
    }
  }

  /** The modal's form: the selected customer and mechanic, the item list, the discount and the payment method. */
  datatype Form = Form(
    customerId: Option<int>, mechanicId: Option<int>, items: seq<Line>,
    discount: int, paymentMethod: string)

  /** The form as the modal resets it on opening. */
  const Opened: Form := Form(None, None, [], 0, "Cash")

  /** `total = subtotal - discount`: not clamped, so a discount above the subtotal sends a negative total. */
  function Total(f: Form): int {
    Subtotal(f.items) - f.discount
  }

  datatype SubmitError = NoItems

  /** `handleSubmit`: refused with no items; otherwise the request carries every line in order, the total and the discount. */
  function Submit(f: Form): (r: Result<TransactionRequest, SubmitError>)
    ensures r.Failure? <==> |f.items| == 0
    ensures r.Success? ==>
      && r.value.customerId == f.customerId && r.value.mechanicId == f.mechanicId
      && r.value.totalAmount == Subtotal(f.items) - f.discount
      && r.value.discount == f.discount && r.value.paymentMethod == f.paymentMethod
      && |r.value.items| == |f.items|
      && forall i :: 0 <= i < |f.items| ==> ReadLine(r.value.items[i]) == Some(f.items[i])
  {
    if |f.items| == 0 then Failure(NoItems)
    else
      Pos.ItemObjectsRoundTrip(f.items);
      var items := seq(|f.items|, i requires 0 <= i < |f.items| => ItemObject(f.items[i]));
      Success(TransactionRequest(f.customerId, f.mechanicId, items, Total(f), f.discount, f.paymentMethod))
  }

  /** A freshly opened form cannot be submitted. */
  lemma OpenedFormRefused()
    ensures Submit(Opened).Failure?
  {
  }

  /** The same cart and choices give the same request from the modal as from the point-of-sale page. */
  lemma SubmitAgreesWithPos(s: Pos.PosState)
    requires Pos.BeginCheckout(s).Some?
    ensures Submit(Form(s.customer, s.mechanic, s.cart, s.discount, s.paymentMethod))
      == Success(Pos.BeginCheckout(s).value.request)
  {
  }

  /** Neither screen clamps the total: a discount above the subtotal is sent as a negative total. */
  lemma NegativeTotalSent()
    ensures var f := Form(None, None, [Line(1, Service, "Tune-up", 50, 1, 50)], 80, "Cash");
      Submit(f).Success? && Submit(f).value.totalAmount == -30
  {
    var cart := [Line(1, Service, "Tune-up", 50, 1, 50)];
    assert cart[..0] == [];
  }

  // The item picker.

  function LowerChar(c: char): char {
    if 'A' <= c <= 'Z' then (c as int + 32) as char else c
  }

  /** `toLowerCase`, on the ASCII letters. */
  function Lower(s: string): (r: string)
    ensures |r| == |s|
  {
    seq(|s|, i requires 0 <= i < |s| => LowerChar(s[i]))
  }

  /** `sub` occurs in `s` starting at position `i`. */
  predicate OccursAt(s: string, sub: string, i: int) {
    0 <= i && i + |sub| <= |s| && s[i..i + |sub|] == sub
  }

  /** `s.includes(sub)` */
  function Contains(s: string, sub: string): (r: bool)
    decreases |s|
  {
    |sub| <= |s| && (s[..|sub|] == sub || (0 < |s| && Contains(s[1..], sub)))
  }

  /** `includes` holds exactly when `sub` occurs somewhere in `s`; the empty string occurs everywhere. */
  lemma {:induction false} ContainsIffOccurs(s: string, sub: string)
    ensures Contains(s, sub) <==> exists i :: OccursAt(s, sub, i)
    decreases |s|
  {
    if Contains(s, sub) {
      if s[..|sub|] == sub {
        assert OccursAt(s, sub, 0);
      } else {
        ContainsIffOccurs(s[1..], sub);
        var i :| OccursAt(s[1..], sub, i);
        assert 0 <= i && i + |sub| <= |s| - 1;
        forall j | 0 <= j < |sub| ensures s[i + 1..i + 1 + |sub|][j] == sub[j] {
          assert s[1..][i..i + |sub|][j] == sub[j];
        }
        assert OccursAt(s, sub, i + 1);
      }
    } else {
      forall i | OccursAt(s, sub, i) ensures false {
        if i != 0 {
          ContainsIffOccurs(s[1..], sub);
          forall j | 0 <= j < |sub| ensures s[1..][i - 1..i - 1 + |sub|][j] == sub[j] {
            assert s[i..i + |sub|][j] == sub[j];
          }
          assert OccursAt(s[1..], sub, i - 1);
        }
      }
    }
  }

  /** The picker's name test: the lower-cased name includes the lower-cased search text. */
  predicate NameMatches(item: Item, search: string) {
    Contains(Lower(item.name), Lower(search))
  }

  /** An entry the picker offers: it matches the search and is not in the item list yet. */
  predicate Offered(item: Item, cart: seq<Line>, search: string) {
    NameMatches(item, search) && IndexOf(cart, ItemKey(item)).None?
  }

  function Filter(candidates: seq<Item>, cart: seq<Line>, search: string): (r: seq<Item>)
    ensures |r| <= |candidates|
    ensures forall j :: 0 <= j < |r| ==> Offered(r[j], cart, search)
  {
    if |candidates| == 0 then []
    else (if Offered(candidates[0], cart, search) then [candidates[0]] else []) + Filter(candidates[1..], cart, search)
  }

  lemma {:induction false} FilterAppend(a: seq<Item>, b: seq<Item>, cart: seq<Line>, search: string)
    ensures Filter(a + b, cart, search) == Filter(a, cart, search) + Filter(b, cart, search)
  {
    if |a| == 0 {
      assert a + b == b;
    } else {
      var h := if Offered(a[0], cart, search) then [a[0]] else [];
      assert (a + b)[0] == a[0];
      assert (a + b)[1..] == a[1..] + b;
      assert Filter(a + b, cart, search) == h + Filter(a[1..] + b, cart, search);
      assert Filter(a, cart, search) == h + Filter(a[1..], cart, search);
      FilterAppend(a[1..], b, cart, search);
    }
  }

  /** The filter keeps exactly the offered candidates. */
  lemma {:induction false} FilterMembers(candidates: seq<Item>, cart: seq<Line>, search: string, x: Item)
    ensures x in Filter(candidates, cart, search) <==> x in candidates && Offered(x, cart, search)
  {
    if |candidates| > 0 {
      FilterMembers(candidates[1..], cart, search, x);
      assert candidates == [candidates[0]] + candidates[1..];
    }
  }

  /** `[...products, ...services]`: the products, then the services. */
  function Catalog(products: seq<ProductRow>, services: seq<ServiceRow>): seq<Item> {
    var ps: seq<Item> := products;
    var ss: seq<Item> := services;
    ps + ss
  }

  /** `[...products, ...services].filter(...).slice(0, 5)` */
  function FilteredItems(products: seq<ProductRow>, services: seq<ServiceRow>, cart: seq<Line>, search: string): (r: seq<Item>)
    ensures |r| <= 5
    ensures forall j :: 0 <= j < |r| ==> Offered(r[j], cart, search)
  {
    var all := Filter(Catalog(products, services), cart, search);
    if |all| <= 5 then all else all[..5]
  }

  /**
   * Every entry the picker shows is a catalog product or service, no product
   * is listed after a service, and when fewer than five entries are shown,
   * every offered catalog entry is among them.
   */
  lemma FilteredItemsFromCatalog(products: seq<ProductRow>, services: seq<ServiceRow>, cart: seq<Line>, search: string)
    ensures var r := FilteredItems(products, services, cart, search);
      && (forall j :: 0 <= j < |r| ==> r[j] in products || r[j] in services)
      && (forall j, k :: 0 <= j < k < |r| && r[k].ProductItem? ==> r[j].ProductItem?)
      && (|r| < 5 ==>
            (forall p :: p in products && Offered(p, cart, search) ==> p in r)
            && (forall s :: s in services && Offered(s, cart, search) ==> s in r))
  {
    FilteredEntriesFromCatalog(products, services, cart, search);
    FilteredProductsFirst(products, services, cart, search);
    FilteredShortListComplete(products, services, cart, search);
  }

  /** The shown entries are a prefix of the filtered catalog. */
  lemma FilteredPrefix(products: seq<ProductRow>, services: seq<ServiceRow>, cart: seq<Line>, search: string)
    ensures var r := FilteredItems(products, services, cart, search);
      var all := Filter(Catalog(products, services), cart, search);
      |r| <= |all| && r == all[..|r|] && (|r| < 5 ==> r == all)
  {
  }

  lemma FilteredEntriesFromCatalog(products: seq<ProductRow>, services: seq<ServiceRow>, cart: seq<Line>, search: string)
    ensures var r := FilteredItems(products, services, cart, search);
      forall j :: 0 <= j < |r| ==> r[j] in products || r[j] in services
  {
    var r := FilteredItems(products, services, cart, search);
    var cat := Catalog(products, services);
    FilteredPrefix(products, services, cart, search);
    forall j | 0 <= j < |r| ensures r[j] in products || r[j] in services {
      assert r[j] in Filter(cat, cart, search);
      FilterMembers(cat, cart, search, r[j]);
    }
  }

  lemma FilteredProductsFirst(products: seq<ProductRow>, services: seq<ServiceRow>, cart: seq<Line>, search: string)
    ensures var r := FilteredItems(products, services, cart, search);
      forall j, k :: 0 <= j < k < |r| && r[k].ProductItem? ==> r[j].ProductItem?
  {
    var ps: seq<Item>, ss: seq<Item> := products, services;
    var fp, fs := Filter(ps, cart, search), Filter(ss, cart, search);
    var r := FilteredItems(products, services, cart, search);
    assert r == (fp + fs)[..|r|] by {
      FilterAppend(ps, ss, cart, search);
      FilteredPrefix(products, services, cart, search);
    }
    forall j, k | 0 <= j < k < |r| && r[k].ProductItem? ensures r[j].ProductItem? {
      if k >= |fp| {
        var x := fs[k - |fp|];
        assert x in ss by { FilterMembers(ss, cart, search, x); }
        assert false;
      }
      var y := fp[j];
      assert r[j] == y;
      assert y in ps by { FilterMembers(ps, cart, search, y); }
    }
  }

  lemma FilteredShortListComplete(products: seq<ProductRow>, services: seq<ServiceRow>, cart: seq<Line>, search: string)
    ensures var r := FilteredItems(products, services, cart, search);
      |r| < 5 ==>
        (forall p :: p in products && Offered(p, cart, search) ==> p in r)
        && (forall s :: s in services && Offered(s, cart, search) ==> s in r)
  {
    var r := FilteredItems(products, services, cart, search);
    var cat := Catalog(products, services);
    FilteredPrefix(products, services, cart, search);
    if |r| < 5 {
      forall p | p in products && Offered(p, cart, search) ensures p in r {
        assert p in cat;
        FilterMembers(cat, cart, search, p);
      }
      forall s | s in services && Offered(s, cart, search) ensures s in r {
        assert s in cat;
        FilterMembers(cat, cart, search, s);
      }
    }
  }

  /**
   * The picker is the page's only caller of `addItem`, and it lists only items
   * not yet in the item list: an item picked from it always gets a new line.
   */
  lemma PickedItemIsNew(products: seq<ProductRow>, services: seq<ServiceRow>, cart: seq<Line>, search: string, j: nat)
    requires j < |FilteredItems(products, services, cart, search)|
    ensures var item := FilteredItems(products, services, cart, search)[j];
      IndexOf(cart, ItemKey(item)).None? && AddItem(cart, item) == cart + [NewLine(item)]
  {
  }

  /** An empty search matches every name, so the picker then offers every catalog entry not yet in the list. */
  lemma EmptySearchMatchesAll(item: Item)
    ensures NameMatches(item, "")
  {
    assert Lower(item.name)[..0] == "";
  }
}

=== FILE: wire.dfy ===
/**
 * The JSON objects a checkout screen puts in the `items` array of a
 * `POST /api/transactions` request, and the field reads the server applies to them.
 * A key that is absent from an object reads as `None` (JavaScript `undefined`).
 */
module Wire {
  import opened Wrappers
  import opened CartLines

  datatype Json = JNum(n: int) | JStr(s: string) | JNull

  type Object = map<string, Json>

  /** `obj[key]` where a string is expected: `None` when the key is absent or holds no string. */
  function StrField(obj: Object, key: string): Option<string> {
    if key in obj && obj[key].JStr? then Some(obj[key].s) else None
  }

  /** `obj[key]` where a number is expected: `None` when the key is absent or holds no number. */
  function NumField(obj: Object, key: string): Option<int> {
    if key in obj && obj[key].JNum? then Some(obj[key].n) else None
  }

  /** The inverse of `TypeName`. */
  function ParseType(s: string): (r: Option<ItemType>)
    ensures r.Some? ==> TypeName(r.value) == s
  {
    if s == "product" then Some(Product)
    else if s == "service" then Some(Service)
    else None
  }

  lemma ParseTypeName(t: ItemType)
    ensures ParseType(TypeName(t)) == Some(t)
  {
  }

  /**
   * One cart line as the server expects to read it: the keys `id`, `type`, `name`,
   * `quantity`, `price` and `subtotal`, as the new-transaction modal builds it.
   */
  function ItemObject(l: Line): Object {
    map[
      "id" := JNum(l.id),
      "type" := JStr(TypeName(l.itemType)),
      "name" := JStr(l.name),
      "quantity" := JNum(l.quantity),
      "price" := JNum(l.price),
      "subtotal" := JNum(l.subtotal)
    ]
  }

  /** The body of a `POST /transactions` request, as both checkout screens send it. */
  datatype TransactionRequest = TransactionRequest(
    customerId: Option<int>, mechanicId: Option<int>, items: seq<Object>,
    totalAmount: int, discount: int, paymentMethod: string)

  /** Reads a cart line back from an item object; `None` when a field is missing or malformed. */
  function ReadLine(obj: Object): Option<Line> {
    var id, t, name := NumField(obj, "id"), StrField(obj, "type"), StrField(obj, "name");
    var q, p, s := NumField(obj, "quantity"), NumField(obj, "price"), NumField(obj, "subtotal");
    if id.Some? && t.Some? && ParseType(t.value).Some? && name.Some? && q.Some? && p.Some? && s.Some?
    then Some(Line(id.value, ParseType(t.value).value, name.value, p.value, q.value, s.value))
    else None
  }

  /** Every field of a line survives the trip into an item object and back. */
  lemma ItemObjectRoundTrip(l: Line)
    ensures ReadLine(ItemObject(l)) == Some(l)
  {
    ParseTypeName(l.itemType);
  }
}

=== FILE: wrappers.dfy ===
/** Option and Result values for the model's missing keys, absent fields and error returns. */
module Wrappers {

  datatype Option<+T> = None | Some(value: T)

  datatype Result<+R, +E> = Success(value: R) | Failure(error: E)
}
